=== FILE: README.md ===
# Multiclicker: click scheduling, interval validation and record/replay

A Dafny model of the core of `autoclicker.py`, a desktop auto-clicker. The
application has three clicker sections. Each section has an enabled box,
three interval entries (minutes, seconds, milliseconds), a target point and
a click counter. F9 (`toggle_clickers`) starts one worker thread per enabled
section, and each worker clicks its target and then sleeps for its interval.
A second tab records left clicks with their time since recording began, and
then replays the recording a chosen number of times.

The model has five modules:

- `Common` holds shared types. These are options, points, the platform
  (Linux or not) and what a click attempt does. A click attempt either
  clicks, or fails and then has a Linux `xdotool` fallback that succeeds,
  fails or raises an error that escapes.
- `Interval` models the three entries of a section. An entry is seen as
  what `int()` makes of its text together with whether `str.isdigit()`
  holds. It models `_validate_input` and `get_total_milliseconds`, and
  proves a round trip between a total and its three entries.
- `Scheduler` models the section state, the controller (`start_all_clickers`,
  `stop_all_clickers`, `toggle_clickers`, `reset_all_clickers`) and
  `clicker_worker`. A worker thread becomes a function over a finite trace
  of its own passes and the control actions taken between them.
- `Recorder` models the recorder's flags and counters and the recording,
  through `start_recording`, `stop_recording`, `toggle_recording`,
  `on_recording_click`, `clear_recording`, `start_replay`, `stop_replay`
  and `replay_completed`.
- `Replay` models `replay_worker` as a pure function. It uses an integer
  millisecond clock that only the worker advances. A trace supplies the
  scheduling lag and driver outcome of each click attempt. The `replaying`
  flag stays up, is lowered by `stop_replay` at some instant, or is
  lowered and raised again by a later `start_replay`.

The model follows the code in these places:

- `reset_clicker` (autoclicker.py:407-422) leaves the enabled box as it is.
  `Scheduler.ResetSlot` does the same.
- In `clicker_worker`, a failed click off Linux is neither retried nor
  fatal. Control falls through to `click_count += 1`, so the pass counts as
  a click (autoclicker.py:872-905). `Scheduler.WorkerStep` counts it too.
  The replay worker instead ends the pass (autoclicker.py:1322-1324).
- `start_replay` stores a parsed count in `max_replays` before it rejects
  a non-positive value (autoclicker.py:1226-1229). `Recorder.StartReplay`
  keeps that value in the refused state.
- `start_replay` does not itself refuse while a replay runs. Only the
  disabled button prevents it.

## Model

| member | source | states |
|---|---|---|
| `Interval.DefaultFields` | autoclicker.py:46-48 | A fresh section's entries "0", "1", "0" are in range and give one second. |
| `Interval.TotalMilliseconds` | autoclicker.py:352-361 | If an entry does not parse, the total is 1000 ms. In-range entries give 0 to 59:59.999. With no minutes and no seconds, the total is the milliseconds entry. |
| `Interval.TotalDecomposes` | autoclicker.py:352-361 | For in-range entries, the minutes, seconds and milliseconds can be read back from the total by division and remainder. |
| `Interval.FromMillisecondsRoundTrip` | autoclicker.py:352-361 | Every total from 0 to 3599999 ms, written out as three numerals, gives the same total back. |
| `Interval.TotalRoundTrip` | autoclicker.py:352-361 | Three in-range numerals are recovered exactly from their total. |
| `Interval.Validate` | autoclicker.py:323-350 | When every entry parses, the result is in range and at least 10 ms. An out-of-range entry becomes its default ("0", "1", "0"), and an in-range minutes or seconds entry is kept. An in-range milliseconds entry is kept when it is at least 10 or when minutes or seconds remain. The "10" floor is written only when there are no minutes and no seconds. When some entry does not parse, exactly the entries that are not all digits are reset to their defaults. |
| `Interval.ValidateFixesValid` | autoclicker.py:323-341 | Entries that are already in range and at least 10 ms are left untouched. |
| `Interval.ValidateTwiceIsStable` | autoclicker.py:323-350 | A third validation changes nothing after two. |
| `Interval.ValidateTwiceBounds` | autoclicker.py:323-350 | After two validations the interval is between 10 ms and 59:59.999. |
| `Interval.ValidateOnceIsNotStable` | autoclicker.py:343-350 | One validation can leave an out-of-range entry: "99", unparsable, "0" becomes "99", "1", "0", and only a second run resets the minutes. |
| `Interval.ValidateSkipsFloorAfterParseFailure` | autoclicker.py:343-350 | After repairing an unparsable entry, the validation never applies the 10 ms floor. "0", "0" with an unparsable milliseconds entry gives a 0 ms interval. |
| `Interval.ValidateCorrected` | autoclicker.py:323-350 | The corrected validation always yields an interval between 10 ms and 59:59.999. When every entry parses, it agrees with the validation as written. |
| `Interval.ValidateCorrectedIsValidateTwice` | autoclicker.py:323-350 | The corrected validation equals two runs of the validation as written. |
| `Scheduler.NewSlot` | autoclicker.py:39-56 | A new section is disabled and inactive, with no target, no clicks and a one-second interval. |
| `Scheduler.Initial` | autoclicker.py:540-545 | Start-up creates sections 1, 2 and 3 with distinct ids. Nothing is running and there are no threads. |
| `Scheduler.SetEnabled` | autoclicker.py:312-321 | Disabling a section also marks it inactive. Enabling it leaves the active flag alone. Nothing else changes. |
| `Scheduler.UpdateStatus` | autoclicker.py:363-376 | The active flag is set. The click count is replaced only when a count is given. Nothing else changes. |
| `Scheduler.UpdateStatusOverrides` | autoclicker.py:363-376 | A later status update overrides an earlier one: its active flag wins, and its count wins when it gives one. |
| `Scheduler.ResetSlot` | autoclicker.py:407-422 | A reset gives a one-second interval, no target, zero clicks and an inactive section. It keeps the section id and the enabled box. |
| `Scheduler.IdsWithoutTarget` | autoclicker.py:780-790 | The list of sections without a target is empty exactly when every enabled section has a target. |
| `Scheduler.IdsWithoutTargetMembers` | autoclicker.py:780-790 | An id is reported if and only if it belongs to an enabled section without a target. |
| `Scheduler.IdsWithoutTargetOrdered` | autoclicker.py:780-790 | The reported ids come in section order. |
| `Scheduler.SpawnWorkers` | autoclicker.py:799-805 | Every enabled section gets a thread entry. Nothing but the active flags of the sections changes. |
| `Scheduler.SpawnWorkersActivates` | autoclicker.py:799-805 | With distinct ids, a section ends up active exactly when it was already active, or it is enabled and had no thread. |
| `Scheduler.StartAll` | autoclicker.py:778-805 | With nothing enabled, the request is refused and nothing changes. If some enabled section lacks a target, it is refused with the offending ids and nothing changes. It starts exactly when some section is enabled and every enabled section has a target. A start raises the global flag, leaves the running set alone and adds a thread entry per enabled section. It activates exactly the enabled sections that had no thread. |
| `Scheduler.StartAllReportsMissingTargets` | autoclicker.py:778-795 | A start is refused for missing targets exactly when some section is enabled and one of them has no target. In that case the controller is unchanged, and the report lists exactly those ids in section order. |
| `Scheduler.StopAll` | autoclicker.py:807-818 | After a stop, the global flag is down, the running set is empty and every section is inactive. Thread entries remain. Nothing else changes. |
| `Scheduler.StopAllIdempotent` | autoclicker.py:807-818 | Stopping twice is the same as stopping once. |
| `Scheduler.Toggle` | autoclicker.py:771-816 | When running, a toggle lowers the flag, empties the running set and marks every section inactive, keeping the thread table and everything else. Otherwise it attempts a start, under the start button's guards. It starts exactly when some section is enabled and every enabled section has a target. Otherwise it reports no enabled section, or the ids without a target, and changes nothing. |
| `Scheduler.ResetAll` | autoclicker.py:822-832 | A reset stops everything, then returns every section to defaults. Each section keeps its id and its enabled box. |
| `Scheduler.ResetAllIdempotent` | autoclicker.py:822-832 | Resetting twice is the same as resetting once. |
| `Scheduler.WorkerEnter` | autoclicker.py:836 | A starting worker adds its section to the running set. Nothing else changes. |
| `Scheduler.WorkerExit` | autoclicker.py:923-931 | The clean-up removes the section from the running set and the thread table and marks it inactive. Nothing else changes. |
| `Scheduler.WorkerStep` | autoclicker.py:838-921 | A pass reaches the click exactly when all of these hold: the flag is up, the section is enabled, it has a target, and the click either succeeded or failed off Linux or had a successful fallback. Such a pass targets the section's point and adds one to its count. It then sleeps the section's interval and stays in the loop exactly when that interval is not negative. With a negative interval the sleep raises, and the worker leaves through the clean-up after counting the click. Any other pass leaves through the clean-up without clicking. |
| `Scheduler.WorkerRun` | autoclicker.py:834-931 | Over a trace of passes, a worker's clicks are all at its target, and the count grows by the number of clicks. A worker that stayed in the loop clicked once per pass. One that left clicked at most once per pass, is inactive, and is out of the running set and the thread table. |
| `Scheduler.NoClickAfterStop` | autoclicker.py:807-838 | After a stop, the worker's next pass leaves the loop without clicking. |
| `Scheduler.NoClickAfterDisable` | autoclicker.py:312-321 | After a section is disabled, its worker's next pass leaves the loop without clicking. The section ends disabled and inactive. |
| `Scheduler.UndisturbedWorkerClicksEveryPass` | autoclicker.py:838-912 | Take a section with the flag up, the section enabled, a non-negative interval and every click succeeding. Then n passes give n clicks at the target, the total sleep is n times the interval, and the count grows by n. |
| `Scheduler.NegativeIntervalClicksOnce` | autoclicker.py:905-931 | With the flag up, the section enabled, a target and a negative interval, the first pass clicks and counts. Then the sleep raises, and the worker leaves the loop, inactive and out of the running set and the thread table. |
| `Scheduler.ApplyKeepsRunningHaveWorkers` | autoclicker.py:771-931 | No controller or worker action puts a section in the running set without a thread entry. |
| `Scheduler.RunningHaveWorkersAlways` | autoclicker.py:771-931 | Over any sequence of actions, the running set stays inside the thread table. |
| `Recorder.Initial` | autoclicker.py:447-452 | At start-up there is no recording, no recording or replay in progress, a zero replay count and a maximum of one. |
| `Recorder.StartRecording` | autoclicker.py:1121-1143 | A start is refused while replaying, and the state is unchanged. Otherwise the old recording is dropped and capture begins now. |
| `Recorder.StopRecording` | autoclicker.py:1145-1184 | A stop does nothing unless recording. Otherwise capture ends, the clicks are kept, and their number is reported, with the duration when there is at least one. |
| `Recorder.ToggleRecording` | autoclicker.py:1114-1119 | A toggle stops a recording in progress and keeps its clicks and start time. Otherwise it starts an empty one, unless a replay is running. Nothing but the recording, its flag and its start time ever changes. |
| `Recorder.OnRecordingClick` | autoclicker.py:1186-1200 | While recording, a left-button press appends one click at the event's point, with its time since the recording started. Any other event changes nothing. |
| `Recorder.ClearRecording` | autoclicker.py:1202-1214 | A clear leaves an empty recording and no recording in progress. Nothing else changes. |
| `Recorder.StartReplay` | autoclicker.py:1216-1247 | A replay is refused for an empty recording, while recording, or for a count that does not parse. A non-positive count is refused after being stored. Otherwise, and only then, replaying begins with the count at 0 and the parsed maximum. |
| `Recorder.StopReplay` | autoclicker.py:1249-1264 | Replaying ends. The status reports the passes begun, or the size of the recording when none was begun. |
| `Recorder.ReplayCompleted` | autoclicker.py:1338-1349 | Replaying ends and the completed passes are reported. |
| `Recorder.StartThenStopReplay` | autoclicker.py:1216-1264 | A replay started and stopped before any pass leaves everything as it was except the two counters. It reports the recording ready to replay. |
| `Recorder.ListenAppendsLeftPresses` | autoclicker.py:1186-1200 | While recording, the listener appends exactly the left-button presses, in order, and changes nothing else. |
| `Recorder.ListenIgnoredWhenIdle` | autoclicker.py:1186-1200 | When not recording, the listener changes nothing. |
| `Recorder.RecordThenStop` | autoclicker.py:1121-1200 | A recording started and stopped holds the left presses heard meanwhile. Its summary counts them. |
| `Recorder.EmptyRecordingCannotReplay` | autoclicker.py:1145-1220 | A recording that heard no click cannot be replayed. |
| `Recorder.ApplyKeepsExclusive` | autoclicker.py:1114-1349 | No recorder action makes recording and replaying happen at once. |
| `Recorder.AlwaysExclusive` | autoclicker.py:1114-1349 | Over any sequence of actions, recording and replaying never happen at once. |
| `Replay.WakeTime` | autoclicker.py:1287-1291 | Before a click, the worker wakes no earlier than the pass start plus the click's recorded delay, and no earlier than it was ready. It wakes at whichever of the two is later. |
| `Replay.RunPass` | autoclicker.py:1282-1324 | A pass never moves the clock backwards. A pass that stops on the flag ends with the flag down. A pass ends as failed only at an attempt whose primary click failed off Linux. It ends in the outer handler only at a Linux attempt whose fallback error escapes. In both cases that attempt is the last one it consumed. |
| `Replay.RunPassShape` | autoclicker.py:1282-1324 | Every click a pass fires is at its recorded point, at least the recorded delay plus 10 ms after the pass start, and decided while the flag was up. The clicks come in recorded order. |
| `Replay.RunPasses` | autoclicker.py:1269-1336 | `replay_count` ends between the passes begun and the maximum. Pauses are at most one per pass. A completed run ends with the flag up and without the error handler. A run reaches the error handler only through an escaping Linux fallback error, which is the last attempt it consumed. |
| `Replay.FailedClickEndsPass` | autoclicker.py:1282-1324 | Off Linux, the first click whose primary attempt fails ends its pass as failed. The clicks before it fire, in order, and no later click of the pass is attempted. |
| `Replay.EscapingErrorEndsPass` | autoclicker.py:1297-1324 | On Linux, the first attempt whose fallback error escapes ends its pass in the outer handler. Exactly the landing clicks before it fire, and no later click is attempted. |
| `Replay.LinuxPassFinishes` | autoclicker.py:1282-1324 | On Linux, a pass with no escaping error among its attempts finishes, having attempted every remaining click. |
| `Replay.CrashEndsReplay` | autoclicker.py:1334-1336 | A pass that ends in the outer handler ends the whole replay. The run does not complete, `replay_count` stops at that pass, and only that pass's clicks fire. |
| `Replay.EscapingErrorEndsReplay` | autoclicker.py:1269-1336 | On Linux, the trace's first escaping fallback error, at click j of pass p, ends the replay there. Every earlier pass runs in full, the run ends in the error handler without completing, `replay_count` is p + 1, and no click of a later pass fires. |
| `Replay.RunPassesShape` | autoclicker.py:1269-1328 | Every click of a run belongs to a pass that was begun and keeps the bounds of its pass. The clicks come in order within a pass and pass after pass, with at least half a second between passes. |
| `Replay.ReplayWorker` | autoclicker.py:1266-1336 | The count is between 0 and the maximum. The worker never both completes and ends in its error handler. Every click belongs to a begun pass, is no earlier than its recorded delay after the pass start, and was decided while the `replaying` flag read true. |
| `Replay.CleanPassFiresAll` | autoclicker.py:1282-1301 | Without a stop and with every click succeeding, a pass fires every recorded click in order and uses one attempt per click. |
| `Replay.CleanPassTargets` | autoclicker.py:1282-1301 | Such a pass clicks exactly the recorded points. |
| `Replay.LinuxPassAttemptsAll` | autoclicker.py:1302-1321 | On Linux, without a stop and without an escaping fallback error, a pass attempts every click. It fires exactly the clicks whose attempt lands, in recorded order, so a failed fallback skips only its own click. |
| `Replay.UnstoppedRunsEveryPass` | autoclicker.py:1269-1332 | Without a stop and without an escaping error, every pass is begun, there is a pause between each two passes, and the worker completes. |
| `Replay.CleanPassesRepeat` | autoclicker.py:1269-1328 | Without a stop and with every click succeeding, the run clicks the recorded points once per remaining pass. |
| `Replay.CleanReplay` | autoclicker.py:1266-1336 | A clean replay of n passes clicks the recording n times in order. That is n times the recording's length in clicks. It ends with `replay_count` = n, has n - 1 pauses and completes. |
| `Replay.StoppedPassIsPrefix` | autoclicker.py:1282-1294 | A stopped pass fires a prefix of what the same pass fires unstopped. Until it finds the flag down, the two are identical. |
| `Replay.StoppedRunIsPrefix` | autoclicker.py:1266-1336 | A stop that is not followed by a new replay only cuts a replay short. Its clicks are a prefix of the unstopped run's clicks, and its `replay_count` is never ahead. |
| `Replay.RestartRevivesStoppedWorker` | autoclicker.py:1287-1294 | As written: clicks are recorded at 0 ms and 10 s, and the replay is stopped at 2 s and started again at 3 s. The stopped worker wakes at 10 s, finds the flag up again, clicks the second point and reports its session completed. |
| `Replay.ReplayWorkerCorrected` | autoclicker.py:1266-1336 | Corrected: the worker also checks that its own session is still current. After a stop, it fires nothing decided after the stop, whether or not a new replay is started, and its run is the unstopped run cut short. |
| `Replay.CorrectedWorkerStaysStopped` | autoclicker.py:1287-1294 | In the restart example, the corrected worker fires only the first click and does not complete. |
| `Replay.ReplaySession` | autoclicker.py:1216-1349 | A refused request changes only what `start_replay` changes and fires nothing. An accepted replay ends with the flag down, the recording unchanged and a count between 0 and the parsed maximum, whether it completes, is stopped or ends in the error handler. After a stop that no new replay follows, no click is decided after the stop. Recording and replaying stay exclusive. |
| `Replay.ReplaySessionCorrected` | autoclicker.py:1216-1349 | The same session with the worker reading its own session's flag. It promises everything `ReplaySession` does, and also that no click is decided after a stop, even when a new replay starts. Without a restart it is the session as written. |
| `Replay.CleanPassKeepsRecordedTiming` | autoclicker.py:1280-1300 | With no lag, no failure and recorded clicks at least 10 ms apart, a pass fires every remaining click at exactly its recorded delay after the pass start plus the 10 ms settle. It ends at its last click. |
| `Replay.CleanPassesKeepRecordedTiming` | autoclicker.py:1269-1324 | Under the same conditions, every click of every pass fires at its recorded delay after its own pass's start plus 10 ms. |
| `Replay.CleanReplayKeepsRecordedTiming` | autoclicker.py:1266-1336 | Delays are kept relative to each pass start, so every pass of a clean replay is spaced like the first, and timing does not drift from click to click. |

## Left out

- The Tk interface is left out because it has no bearing on the state the model tracks. This covers windows, colours, hover effects, status and count labels, message boxes, the recording-info text and `_update_visual_state`.
- Global hotkeys (pynput `GlobalHotKeys`), the mouse listener's thread and `on_closing` are left out. F9 and F10 are the `Toggle` and `ToggleRecording` actions.
- Coordinate selection and the test click (`choose_coordinates`, `set_coordinates`, `start_coordinate_selection`, `on_coordinate_click`, `test_click_at_coordinates`) are outside this core. A section's target is simply present or absent.
- The mouse driver and the `xdotool` subprocess are replaced by an outcome per click attempt, supplied by the caller. That includes the `APPDIR` bundled-binary lookup and the 5-pixel position re-check with its extra 10 ms.
- Threads and real time are left out. A worker is a function over a finite trace of its passes. Control actions are placed between passes, and everything that `root.after` schedules is applied at once.
- Scheduler.WorkerRun: the sleep time is summed but not tied to a clock. The worker's 20 ms settle sleep and the float conversion `interval_ms / 1000.0` are left out.
- Scheduler.WorkerRun: `reset_clicker` and `reset_all_clickers` are not interleaved with a run, although their buttons stay usable while a worker runs. They set the count to 0 and clear the target, so after a reset the count no longer grows by the number of clicks. The resets themselves are `Scheduler.ResetSlot` and `Scheduler.ResetAll`.
- Scheduler.WorkerRun: no control action edits a section's entries during a run, so the interval is fixed for the whole trace. The source re-reads `get_total_milliseconds` on every pass, so an edit while the worker runs changes its later sleeps.
- Replay: times are integer milliseconds, not float seconds. A click's recorded delay is an integer, and the 10 ms settle and 500 ms pause are exact.
- `int(x)`, `int(y)` truncation of recorded coordinates is left out. The listener is taken to report integer points.
- Replay.ReplayWorker: the recording is read once when the worker starts. The source re-reads `self.recorded_clicks` at each pass, so a `clear_recording` during a replay would empty the later passes. That interleaving is not modelled.
- Replay.ReplayWorker: the outer error handler is reached only through an escaping Linux fallback error. Other exceptions the thread could raise are not modelled.
- Replay.RunPassShape: with lag, a click can fire later than its recorded delay, so the general bound on a click's time is only from below. The exact timing is stated under no lag by `Replay.CleanPassKeepsRecordedTiming` and the lemmas built on it.
- Replay.ReplayWorker: for the same reason, its timing clause is a lower bound. `Replay.CleanReplayKeepsRecordedTiming` states that delays are measured from each pass start.
- Replay.RunPass: a failed attempt takes no clock time, and neither does the `xdotool` fallback subprocess. Only the lag before the attempt and the 10 ms settle advance the clock.
- Scheduler.WorkerStep: an all-digit minutes entry can survive validation after a parse failure. If it is too large for `time.sleep`, the sleep raises OverflowError, and the worker leaves the same way as for a negative interval. That limit depends on the platform and is not modelled, so such an interval is slept like any other.
- Replay.ReplayWorker: a worker revived by a new `start_replay` also overwrites `replay_count` and can end the new session through `replay_completed`. The recorder state of that second session is not modelled. The revival itself is a finding below.
- Recorder.StopRecording: the duration is reported as whole milliseconds, not formatted seconds.
- `build_appimage.py` is packaging and has nothing to do with the core's behaviour.

## Findings

| source | as written | input that shows it | evidently intended | confidence | as-written member | corrected member |
|---|---|---|---|---|---|---|
| autoclicker.py:1287-1294 | `replay_worker` checks only the shared `replaying` flag after its sleep. `stop_replay` re-enables the replay button, and `start_replay` raises the flag again. | Record clicks at 0 ms and 10 s. Replay, stop at 2 s and start again at 3 s. The first worker wakes at 10 s and clicks the second point, after the stop, then schedules `replay_completed`. | A stopped worker stays stopped: it fires nothing decided after the stop, whatever happens to later sessions. | medium, not executed | `Replay.RestartRevivesStoppedWorker` | `Replay.ReplayWorkerCorrected`, `Replay.ReplaySessionCorrected` |
| autoclicker.py:343-350 | After a `ValueError`, the validation only resets the entries that are not all digits. It never applies the range checks or the 10 ms floor to the repaired entries. | Minutes "0", seconds "0", milliseconds "x" become "0", "0", "0". The worker then sleeps 0 ms between clicks until the next key release or focus-out re-runs the validation. | The repaired entries pass the same range and floor checks, so the interval is always at least 10 ms. | medium, not executed | `Interval.ValidateSkipsFloorAfterParseFailure` | `Interval.ValidateCorrected` |

=== FILE: common.dfy ===
/** Types shared by the interval, scheduler, recorder and replay models. */
module Common {

  /** An optional value; `None` plays the part of Python's `None`. */
  datatype Option<+T> = None | Some(value: T)

  /** A screen position in integer pixels. */
  datatype Point = Point(x: int, y: int)

  /** The only platform distinction the click logic makes: Linux or not. */
  datatype Platform = Linux | OtherPlatform

  /** What the Linux fallback (the external injection utility) did after
      the primary primitive raised: it clicked, it failed in the way the
      code catches (a failed exit or a missing program), or it raised some
      other error that escapes to the worker's outer handler. */
  datatype Fallback = FallbackOk | FallbackFailed | FallbackCrashed

  /** How one click attempt through the input driver went: the primary
      primitive (move the cursor, then click) worked, or it raised and the
      fallback did `fallback`. Elsewhere than on Linux the fallback is never
      tried and its component is ignored. */
  datatype DriverOutcome = Clicked | PrimaryFailed(fallback: Fallback)

  /** What Python's `int(text)` makes of a text field: the field is empty,
      it parses to an integer, or `int` raises `ValueError`. */
  datatype Parse = Empty | Int(i: int) | Bad
}

=== FILE: interval.dfy ===
/** The click interval of one clicker slot: three text entries (minutes,
    seconds, milliseconds), the validation that runs after every edit of
    them, and the millisecond total a worker sleeps between clicks. */
module Interval {
  import opened Common

  /** One text entry as the validation sees it: what `int()` makes of the
      text, and whether `str.isdigit()` holds of it. The two are independent
      in Python: "-5" and " 5" parse but are not all digits, and a
      superscript digit is a digit that does not parse. */
  datatype Field = Field(parse: Parse, isDigits: bool)

  /** The three entries of one slot. */
  datatype Fields = Fields(minutes: Field, seconds: Field, millis: Field)

  /** The shortest interval the range-checking branch lets through. */
  const FloorMs: int := 10

  /** The interval used when some entry does not parse. */
  const UnparsableMs: int := 1000

  /** The longest interval in-range entries can express: 59:59.999. */
  const MaxMs: int := 59 * 60000 + 59 * 1000 + 999

  /** The entry holding the decimal numeral of `n`, as written by `set(str(n))`. */
  function Numeral(n: nat): (f: Field)
    ensures f.parse == Int(n) && f.isDigits
  {
    Field(Int(n), true)
  }

  /** The entries a fresh or reset slot holds: "0", "1", "0". */
  function DefaultFields(): (fs: Fields)
    ensures InRange(fs) && TotalMilliseconds(fs) == 1000
  {
    Fields(Numeral(0), Numeral(1), Numeral(0))
  }

  predicate Parses(f: Field) {
    !f.parse.Bad?
  }

  /** The number an entry stands for; an empty entry counts as 0. */
  function Value(f: Field): int
    requires Parses(f)
  {
    match f.parse
    case Empty => 0
    case Int(i) => i
  }

  predicate AllParse(fs: Fields) {
    Parses(fs.minutes) && Parses(fs.seconds) && Parses(fs.millis)
  }

  /** Every entry parses and lies in its range: minutes and seconds in
      [0, 59], milliseconds in [0, 999]. */
  predicate InRange(fs: Fields) {
    && AllParse(fs)
    && 0 <= Value(fs.minutes) <= 59
    && 0 <= Value(fs.seconds) <= 59
    && 0 <= Value(fs.millis) <= 999
  }

  /** What the range-checking branch of the validation establishes. */
  predicate Valid(fs: Fields) {
    InRange(fs) && TotalMilliseconds(fs) >= FloorMs
  }

  /** `get_total_milliseconds`: minutes, seconds and milliseconds combined,
      or one second when some entry does not parse. */
  function TotalMilliseconds(fs: Fields): (r: int)
    ensures !AllParse(fs) ==> r == UnparsableMs
    ensures InRange(fs) ==> 0 <= r <= MaxMs
    ensures AllParse(fs) && Value(fs.minutes) == 0 && Value(fs.seconds) == 0 ==> r == Value(fs.millis)
  {
    if AllParse(fs) then
      Value(fs.minutes) * 60000 + Value(fs.seconds) * 1000 + Value(fs.millis)
    else
      UnparsableMs
  }

  /** The entries that spell out `t` milliseconds as minutes, seconds and
      milliseconds. */
  function FromMilliseconds(t: nat): (fs: Fields)
    requires t <= MaxMs
    ensures InRange(fs)
  {
    Fields(Numeral(t / 60000), Numeral((t / 1000) % 60), Numeral(t % 1000))
  }

  /** `after` is `before` when `before` is all digits, and `default` otherwise. */
  predicate ResetUnlessDigits(before: Field, after: Field, default: Field) {
    (before.isDigits ==> after == before) && (!before.isDigits ==> after == default)
  }

  function KeepIfIn(f: Field, hi: int, default: Field): Field
    requires Parses(f)
  {
    if Value(f) < 0 || Value(f) > hi then default else f
  }

  function ResetIfNotDigits(f: Field, default: Field): Field {
    if f.isDigits then f else default
  }

  /** `_validate_input`. When all three entries parse, an out-of-range
      entry is replaced by its default ("0", "1", "0"), and if the total is
      then below 10 ms the milliseconds entry becomes "10". When some entry
      does not parse, every entry that is not all digits is replaced by its
      default and nothing else is checked. */
  function Validate(fs: Fields): (r: Fields)
    // every entry parses: the result is in range and at least 10 ms
    ensures AllParse(fs) ==> Valid(r)
    ensures AllParse(fs) && 0 <= Value(fs.minutes) <= 59 ==> r.minutes == fs.minutes
    ensures AllParse(fs) && !(0 <= Value(fs.minutes) <= 59) ==> r.minutes == Numeral(0)
    ensures AllParse(fs) && 0 <= Value(fs.seconds) <= 59 ==> r.seconds == fs.seconds
    ensures AllParse(fs) && !(0 <= Value(fs.seconds) <= 59) ==> r.seconds == Numeral(1)
    ensures AllParse(fs) ==> r.millis == fs.millis || r.millis == Numeral(0) || r.millis == Numeral(10)
    ensures AllParse(fs) && FloorMs <= Value(fs.millis) <= 999 ==> r.millis == fs.millis
    // an in-range milliseconds entry is kept whenever minutes or seconds remain
    ensures AllParse(fs) && 0 <= Value(fs.millis) <= 999 && (Value(r.minutes) != 0 || Value(r.seconds) != 0) ==>
              r.millis == fs.millis
    // the floor is applied only to an interval of no minutes and no seconds
    ensures AllParse(fs) && r.millis == Numeral(10) && fs.millis != Numeral(10) ==>
              Value(r.minutes) == 0 && Value(r.seconds) == 0
    // some entry does not parse: only the entries that are not all digits change
    ensures !AllParse(fs) ==>
              && ResetUnlessDigits(fs.minutes, r.minutes, Numeral(0))
              && ResetUnlessDigits(fs.seconds, r.seconds, Numeral(1))
              && ResetUnlessDigits(fs.millis, r.millis, Numeral(0))
  {
    if AllParse(fs) then
      var checked := Fields(KeepIfIn(fs.minutes, 59, Numeral(0)),
                            KeepIfIn(fs.seconds, 59, Numeral(1)),
                            KeepIfIn(fs.millis, 999, Numeral(0)));
      if TotalMilliseconds(checked) < FloorMs then checked.(millis := Numeral(10)) else checked
    else
      Fields(ResetIfNotDigits(fs.minutes, Numeral(0)),
             ResetIfNotDigits(fs.seconds, Numeral(1)),
             ResetIfNotDigits(fs.millis, Numeral(0)))
  }

  /** The validation with the range checks and the 10 ms floor applied also
      after a parse failure has been repaired: what the validation evidently
      means to guarantee, and what a second run of it delivers. */
  function ValidateCorrected(fs: Fields): (r: Fields)
    ensures FloorMs <= TotalMilliseconds(r) <= MaxMs
    ensures AllParse(r) ==> Valid(r)
    ensures AllParse(fs) ==> r == Validate(fs)
  {
    var repaired := Validate(fs);
    if AllParse(repaired) then Validate(repaired) else repaired
  }

  /** The three entries can be read back from the total: minutes are
      `t / 60000`, seconds `(t / 1000) % 60` and milliseconds `t % 1000`. */
  lemma TotalDecomposes(fs: Fields)
    requires InRange(fs)
    ensures var t := TotalMilliseconds(fs);
            && t / 60000 == Value(fs.minutes)
            && (t / 1000) % 60 == Value(fs.seconds)
            && t % 1000 == Value(fs.millis)
  {
    var m, s, ms := Value(fs.minutes), Value(fs.seconds), Value(fs.millis);
    var t := TotalMilliseconds(fs);
    assert t == (m * 60 + s) * 1000 + ms;
    DivModUnique(t, 1000, m * 60 + s, ms);
    DivModUnique(m * 60 + s, 60, m, s);
    DivModUnique(t, 60000, m, s * 1000 + ms);
  }

  lemma DivModUnique(a: int, d: int, q: int, r: int)
    requires d > 0 && 0 <= r < d && a == q * d + r
    ensures a / d == q && a % d == r
  {
    var q', r' := a / d, a % d;
    assert a == q' * d + r' && 0 <= r' < d;
    assert (q - q') * d == r' - r;
    if q > q' {
      MulAtLeast(q - q', d);
    } else if q < q' {
      MulAtLeast(q' - q, d);
    }
  }

  lemma MulAtLeast(k: int, d: int)
    requires k >= 1 && d > 0
    ensures k * d >= d
  {
  }

  /** Every interval a slot can hold in range, 0 to 3599999 ms, round-trips
      through its three entries. */
  lemma FromMillisecondsRoundTrip(t: nat)
    requires t <= MaxMs
    ensures TotalMilliseconds(FromMilliseconds(t)) == t
  {
    var q := t / 1000;
    assert t == q * 1000 + t % 1000;
    assert q == (q / 60) * 60 + q % 60;
    assert (t / 1000) / 60 == t / 60000;
  }

  /** Entries written as numerals are recovered from their total. */
  lemma TotalRoundTrip(m: nat, s: nat, ms: nat)
    requires m <= 59 && s <= 59 && ms <= 999
    ensures FromMilliseconds(TotalMilliseconds(Fields(Numeral(m), Numeral(s), Numeral(ms))))
            == Fields(Numeral(m), Numeral(s), Numeral(ms))
  {
    TotalDecomposes(Fields(Numeral(m), Numeral(s), Numeral(ms)));
  }

  /** Entries that are already valid are left exactly as they are. */
  lemma ValidateFixesValid(fs: Fields)
    requires Valid(fs)
    ensures Validate(fs) == fs
  {
  }

  /** Validating twice is as good as validating forever: a third run changes
      nothing. */
  lemma ValidateTwiceIsStable(fs: Fields)
    ensures Validate(Validate(Validate(fs))) == Validate(Validate(fs))
  {
    var once := Validate(fs);
    if AllParse(once) {
      ValidateFixesValid(Validate(once));
    } else {
      assert !AllParse(fs);
      assert once.minutes.isDigits && once.seconds.isDigits && once.millis.isDigits;
      assert Validate(once) == once;
    }
  }

  /** After two runs of the validation the interval a worker sleeps is at
      least 10 ms and at most 59:59.999. */
  lemma ValidateTwiceBounds(fs: Fields)
    ensures FloorMs <= TotalMilliseconds(Validate(Validate(fs))) <= MaxMs
  {
    var once := Validate(fs);
    if !AllParse(once) {
      assert !AllParse(fs);
      assert once.minutes.isDigits && once.seconds.isDigits && once.millis.isDigits;
      assert Validate(once) == once;
    }
  }

  /** The corrected validation is exactly two runs of the validation as
      written. */
  lemma ValidateCorrectedIsValidateTwice(fs: Fields)
    ensures ValidateCorrected(fs) == Validate(Validate(fs))
  {
    var once := Validate(fs);
    if !AllParse(once) {
      assert !AllParse(fs);
      assert once.minutes.isDigits && once.seconds.isDigits && once.millis.isDigits;
      assert Validate(once) == once;
    }
  }

  /** One run is not always enough: minutes "99" survive a repair of an
      unparsable seconds entry, and only the next run resets them. */
  lemma ValidateOnceIsNotStable()
    ensures var fs := Fields(Numeral(99), Field(Bad, false), Numeral(0));
            && Validate(fs) == Fields(Numeral(99), Numeral(1), Numeral(0))
            && Validate(Validate(fs)) == Fields(Numeral(0), Numeral(1), Numeral(0))
  {
  }

  /** As written, the floor is skipped after a parse failure: with entries
      "0", "0" and an unparsable milliseconds text, the repaired entries
      give an interval of 0 ms. */
  lemma ValidateSkipsFloorAfterParseFailure()
    ensures var r := Validate(Fields(Numeral(0), Numeral(0), Field(Bad, false)));
            && AllParse(r)
            && TotalMilliseconds(r) == 0
            && TotalMilliseconds(r) < FloorMs
  {
  }
}

=== FILE: recorder.dfy ===
/** The recorder tab's control state: capturing left clicks with their
    time since recording began, and the flags and counters that starting,
    stopping and finishing a replay change. Recording and replaying are
    mutually exclusive. Clock readings are integer milliseconds supplied by
    the caller. */
module Recorder {
  import opened Common

  /** One captured click: where, and how many milliseconds after the
      recording started. */
  datatype RecordedClick = RecordedClick(x: int, y: int, delay: int)

  /** The mouse buttons the listener reports. */
  datatype Button = Left | Right | Middle

  /** One event from the recording listener. */
  datatype MouseEvent = MouseEvent(x: int, y: int, button: Button, pressed: bool, time: int)

  datatype State = State(
    recorded: seq<RecordedClick>,
    recording: bool,
    startTime: int,
    replaying: bool,
    replayCount: int,
    maxReplays: int)

  /** Why a request was turned down. */
  datatype Refusal = RecordWhileReplaying | NothingToReplay | ReplayWhileRecording | InvalidCount

  datatype Reply = Accepted | Refused(reason: Refusal)

  /** What stopping a recording reports: nothing (it was not recording), or
      the number of clicks and, when there are any, the time since the
      recording started. */
  datatype Summary = NotRecording | Captured(count: nat, durationMs: Option<int>)

  /** What the replay status shows after a stop or a completion. */
  datatype ReplayStatus = StoppedAfter(passes: int) | ReadyToReplay(clicks: nat) | Completed(passes: int)

  /** The application at start-up. */
  function Initial(): (s: State)
    ensures s.recorded == [] && !s.recording && !s.replaying && s.replayCount == 0 && s.maxReplays == 1
  {
    State([], false, 0, false, 0, 1)
  }

  /** At most one of recording and replaying is going on. */
  predicate Exclusive(s: State) {
    !(s.recording && s.replaying)
  }

  /** `start_recording`: refused while a replay runs; otherwise the previous
      recording is dropped and capture begins at `now`. */
  function StartRecording(s: State, now: int): (r: (State, Reply))
    ensures s.replaying ==> r == (s, Refused(RecordWhileReplaying))
    ensures !s.replaying ==> r.1 == Accepted && r.0 == s.(recorded := [], recording := true, startTime := now)
  {
    if s.replaying then (s, Refused(RecordWhileReplaying))
    else (s.(recorded := [], recording := true, startTime := now), Accepted)
  }

  /** `stop_recording`: does nothing unless recording; otherwise capture
      ends and the clicks captured so far are kept. */
  function StopRecording(s: State, now: int): (r: (State, Summary))
    ensures !s.recording ==> r == (s, NotRecording)
    ensures s.recording ==> r.0 == s.(recording := false)
    ensures s.recording ==> r.1 == Captured(|s.recorded|, if |s.recorded| > 0 then Some(now - s.startTime) else None)
  {
    if !s.recording then (s, NotRecording)
    else
      var n := |s.recorded|;
      (s.(recording := false), Captured(n, if n > 0 then Some(now - s.startTime) else None))
  }

  /** `toggle_recording`. */
  function ToggleRecording(s: State, now: int): (r: State)
    ensures s.recording ==> !r.recording && r.recorded == s.recorded
    ensures !s.recording && !s.replaying ==> r.recording && r.recorded == [] && r.startTime == now
    ensures !s.recording && s.replaying ==> r == s
    // only the recording, its flag and its start time can change
    ensures r.(recorded := s.recorded, recording := s.recording, startTime := s.startTime) == s
    ensures s.recording ==> r.startTime == s.startTime
  {
    if s.recording then StopRecording(s, now).0 else StartRecording(s, now).0
  }

  /** `on_recording_click`: a left-button press while recording appends
      one click, its delay measured from the start of the recording; every
      other event is ignored. */
  function OnRecordingClick(s: State, e: MouseEvent): (r: State)
    ensures e.pressed && e.button == Left && s.recording ==>
              r == s.(recorded := s.recorded + [RecordedClick(e.x, e.y, e.time - s.startTime)])
    ensures !(e.pressed && e.button == Left && s.recording) ==> r == s
  {
    if e.pressed && e.button == Left && s.recording then
      s.(recorded := s.recorded + [RecordedClick(e.x, e.y, e.time - s.startTime)])
    else s
  }

  /** `clear_recording`: stops a recording in progress, then empties the
      recording. */
  function ClearRecording(s: State, now: int): (r: State)
    ensures r.recorded == [] && !r.recording
    ensures r.(recorded := s.recorded, recording := s.recording) == s
  {
    StopRecording(s, now).0.(recorded := [])
  }

  /** `start_replay`, given what `int()` makes of the count entry (an empty
      entry raises, like an unparsable one). Refused for an empty recording,
      while recording, or for a count that does not parse or is not
      positive; a parsed count is stored before it is checked. */
  function StartReplay(s: State, count: Parse): (r: (State, Reply))
    ensures |s.recorded| == 0 ==> r == (s, Refused(NothingToReplay))
    ensures |s.recorded| > 0 && s.recording ==> r == (s, Refused(ReplayWhileRecording))
    ensures |s.recorded| > 0 && !s.recording && !count.Int? ==> r == (s, Refused(InvalidCount))
    ensures |s.recorded| > 0 && !s.recording && count.Int? && count.i <= 0 ==>
              r == (s.(maxReplays := count.i), Refused(InvalidCount))
    ensures r.1 == Accepted <==> |s.recorded| > 0 && !s.recording && count.Int? && count.i > 0
    ensures r.1 == Accepted ==> r.0 == s.(replaying := true, replayCount := 0, maxReplays := count.i)
  {
    if |s.recorded| == 0 then (s, Refused(NothingToReplay))
    else if s.recording then (s, Refused(ReplayWhileRecording))
    else match count
      case Int(n) =>
        if n <= 0 then (s.(maxReplays := n), Refused(InvalidCount))
        else (s.(replaying := true, replayCount := 0, maxReplays := n), Accepted)
      case _ => (s, Refused(InvalidCount))
  }

  /** `stop_replay`: replaying ends; the status names the passes begun, or
      the size of the recording when none was. */
  function StopReplay(s: State): (r: (State, ReplayStatus))
    ensures r.0 == s.(replaying := false)
    ensures s.replayCount > 0 ==> r.1 == StoppedAfter(s.replayCount)
    ensures s.replayCount <= 0 ==> r.1 == ReadyToReplay(|s.recorded|)
  {
    (s.(replaying := false),
     if s.replayCount > 0 then StoppedAfter(s.replayCount) else ReadyToReplay(|s.recorded|))
  }

  /** `replay_completed`. */
  function ReplayCompleted(s: State): (r: (State, ReplayStatus))
    ensures r.0 == s.(replaying := false) && r.1 == Completed(s.replayCount)
  {
    (s.(replaying := false), Completed(s.replayCount))
  }

  /** The clicks a recording started at `start` captures from `events`:
      the left-button presses, in order, each with its time since `start`. */
  function LeftPresses(events: seq<MouseEvent>, start: int): (clicks: seq<RecordedClick>)
    ensures |clicks| <= |events|
  {
    if |events| == 0 then []
    else
      var e := events[0];
      (if e.pressed && e.button == Left then [RecordedClick(e.x, e.y, e.time - start)] else [])
        + LeftPresses(events[1..], start)
  }

  /** Feed the listener a sequence of events. */
  function Listen(s: State, events: seq<MouseEvent>): State
    decreases |events|
  {
    if |events| == 0 then s else Listen(OnRecordingClick(s, events[0]), events[1..])
  }

  /** While recording, the listener appends exactly the left-button presses,
      in the order they arrive, and changes nothing else. */
  lemma {:induction false} ListenAppendsLeftPresses(s: State, events: seq<MouseEvent>)
    requires s.recording
    ensures Listen(s, events) == s.(recorded := s.recorded + LeftPresses(events, s.startTime))
    decreases |events|
  {
    if |events| > 0 {
      var s' := OnRecordingClick(s, events[0]);
      ListenAppendsLeftPresses(s', events[1..]);
      assert s'.recorded + LeftPresses(events[1..], s.startTime) == s.recorded + LeftPresses(events, s.startTime);
    }
  }

  /** When not recording, the listener changes nothing. */
  lemma {:induction false} ListenIgnoredWhenIdle(s: State, events: seq<MouseEvent>)
    requires !s.recording
    ensures Listen(s, events) == s
    decreases |events|
  {
    if |events| > 0 {
      ListenIgnoredWhenIdle(OnRecordingClick(s, events[0]), events[1..]);
    }
  }

  /** A recording started at `start` and stopped at `stop` holds the left
      presses of the events heard meanwhile, and its summary counts them. */
  lemma RecordThenStop(s: State, start: int, events: seq<MouseEvent>, stop: int)
    requires !s.replaying
    ensures var (started, _) := StartRecording(s, start);
            var (stopped, summary) := StopRecording(Listen(started, events), stop);
            && stopped.recorded == LeftPresses(events, start)
            && !stopped.recording
            && summary == Captured(|LeftPresses(events, start)|,
                                   if |LeftPresses(events, start)| > 0 then Some(stop - start) else None)
  {
    var (started, _) := StartRecording(s, start);
    ListenAppendsLeftPresses(started, events);
  }

  /** Everything the control side can do to the recorder state. `Progress`
      is the replay worker beginning pass number `pass`. */
  datatype Action =
    | StartRec(now: int) | StopRec(now: int) | ToggleRec(now: int)
    | Hear(e: MouseEvent) | Clear(now: int)
    | StartRep(entry: Parse) | StopRep | Complete | Progress(pass: int)

  function Apply(s: State, a: Action): State {
    match a
    case StartRec(now) => StartRecording(s, now).0
    case StopRec(now) => StopRecording(s, now).0
    case ToggleRec(now) => ToggleRecording(s, now)
    case Hear(e) => OnRecordingClick(s, e)
    case Clear(now) => ClearRecording(s, now)
    case StartRep(entry) => StartReplay(s, entry).0
    case StopRep => StopReplay(s).0
    case Complete => ReplayCompleted(s).0
    case Progress(pass) => s.(replayCount := pass)
  }

  function ApplyAll(s: State, actions: seq<Action>): State
    decreases |actions|
  {
    if |actions| == 0 then s else ApplyAll(Apply(s, actions[0]), actions[1..])
  }

  /** Every action keeps recording and replaying apart. */
  lemma ApplyKeepsExclusive(s: State, a: Action)
    requires Exclusive(s)
    ensures Exclusive(Apply(s, a))
  {
  }

  /** From start-up, no sequence of actions ever records and replays at once. */
  lemma {:induction false} AlwaysExclusive(s: State, actions: seq<Action>)
    requires Exclusive(s)
    ensures Exclusive(ApplyAll(s, actions))
    decreases |actions|
  {
    if |actions| > 0 {
      ApplyKeepsExclusive(s, actions[0]);
      AlwaysExclusive(Apply(s, actions[0]), actions[1..]);
    }
  }

  /** A replay that is started and stopped before its first pass leaves
      the recording and the recorder as they were, apart from the count,
      and reports the recording ready to replay again. */
  lemma StartThenStopReplay(s: State, n: int)
    requires |s.recorded| > 0 && !s.recording && !s.replaying && n > 0
    ensures var (started, reply) := StartReplay(s, Int(n));
            var (stopped, status) := StopReplay(started);
            && reply == Accepted && started.replaying
            && stopped == s.(replayCount := 0, maxReplays := n)
            && status == ReadyToReplay(|s.recorded|)
  {
  }

  /** Recording then stopping with no click heard leaves nothing a replay
      could start from. */
  lemma EmptyRecordingCannotReplay(s: State, start: int, stop: int, count: Parse)
    requires !s.replaying
    ensures var stopped := StopRecording(StartRecording(s, start).0, stop).0;
            && stopped.recorded == []
            && StartReplay(stopped, count) == (stopped, Refused(NothingToReplay))
  {
  }
}

=== FILE: replay.dfy ===
/** `replay_worker` as a pure function. The worker's thread, its sleeps and
    the wall clock become an integer millisecond clock that only the worker
    advances: every sleep advances it by exactly its length, and before each
    click the worker may lose some further time (`lagMs`) to scheduling.
    The outcome of each click attempt and the lag before it come from a
    finite trace; the `replaying` flag is given by when `stop_replay` lowers
    it and when a later `start_replay` raises it again. */
module Replay {
  import opened Common
  import Recorder

  /** The settle time between moving the cursor and clicking. */
  const SettleMs: int := 10

  /** The pause between two passes. */
  const PauseMs: int := 500

  /** What happens at one click attempt: time lost before it, and how the
      driver did. */
  datatype Attempt = Attempt(lagMs: nat, outcome: DriverOutcome)

  /** One click that reached the screen: the pass (from 0) and the index in
      the recording it came from, its position, when its pass started and
      when it fired. */
  datatype Fired = Fired(pass: nat, index: nat, x: int, y: int, passStart: int, time: int)

  /** How a pass ended: every click was attempted, the flag was found
      down, a click failed elsewhere than on Linux, or the Linux fallback
      raised an error that escapes to the worker's outer handler. */
  datatype PassEnd = Finished | Halted | Failed | Crashed

  datatype PassResult = PassResult(fired: seq<Fired>, now: int, next: nat, end: PassEnd)

  /** The whole run: the clicks fired, the last value of `replay_count`,
      the number of pauses between passes, whether the worker finished with
      the flag still up (and so schedules `replay_completed`), whether it
      ended in its outer handler (and so schedules `stop_replay`), and the
      clock and trace position at the end. */
  datatype ReplayRun = ReplayRun(fired: seq<Fired>, replayCount: int, pauses: nat, completed: bool, crashed: bool, now: int, next: nat)

  /** The trace entry for attempt `k`; past the end of the trace every
      attempt clicks at once. */
  function AttemptAt(env: seq<Attempt>, k: nat): Attempt {
    if k < |env| then env[k] else Attempt(0, Clicked)
  }

  /** How the `replaying` flag moves while a worker runs: it stays up, it
      is lowered at `stop` by `stop_replay`, or it is lowered at `stop` and
      raised again at `restart` by the next `start_replay`. */
  datatype Flag = StaysUp | DownFrom(stop: int) | DownBetween(stop: int, restart: int)

  /** Whether the `replaying` flag reads true at time `t`. */
  predicate Running(t: int, flag: Flag) {
    match flag
    case StaysUp => true
    case DownFrom(stop) => t < stop
    case DownBetween(stop, restart) => t < stop || restart <= t
  }

  /** A flag history that can happen: a restart comes after its stop. */
  predicate ValidFlag(flag: Flag) {
    flag.DownBetween? ==> flag.stop < flag.restart
  }

  /** Whether a click attempt with this outcome reaches the screen. */
  predicate Lands(outcome: DriverOutcome, platform: Platform) {
    outcome.Clicked? || (platform == Linux && outcome.fallback == FallbackOk)
  }

  /** A click fired in pass `pass` (started at `passStart`) from recorded
      click `i` on, between times `lo` and `hi`: it is at the recorded
      position, no earlier than the pass start plus its recorded delay plus
      the settle time, and the flag was up when the worker decided to
      click. */
  predicate InPass(f: Fired, rec: seq<Recorder.RecordedClick>, pass: nat, passStart: int, i: nat, lo: int, hi: int,
                   flag: Flag) {
    && f.pass == pass && f.passStart == passStart
    && i <= f.index < |rec|
    && f.x == rec[f.index].x && f.y == rec[f.index].y
    && f.time >= passStart + rec[f.index].delay + SettleMs
    && lo + SettleMs <= f.time <= hi
    && Running(f.time - SettleMs, flag)
  }

  /** `f` fires before `g`: no later, in an earlier pass or earlier in the
      same pass, and a pass later only after a pause. */
  predicate Before(f: Fired, g: Fired) {
    && f.time <= g.time
    && (f.pass < g.pass || (f.pass == g.pass && f.index < g.index))
    && (f.pass < g.pass ==> g.passStart >= f.time + PauseMs)
  }

  predicate Ordered(fired: seq<Fired>) {
    forall a, b :: 0 <= a < b < |fired| ==> Before(fired[a], fired[b])
  }

  lemma OrderedConcat(xs: seq<Fired>, ys: seq<Fired>)
    requires Ordered(xs) && Ordered(ys)
    requires forall a, b :: 0 <= a < |xs| && 0 <= b < |ys| ==> Before(xs[a], ys[b])
    ensures Ordered(xs + ys)
  {
    var zs := xs + ys;
    forall a, b | 0 <= a < b < |zs|
      ensures Before(zs[a], zs[b])
    {
      if b < |xs| {
        assert zs[a] == xs[a] && zs[b] == xs[b];
      } else if a >= |xs| {
        assert zs[a] == ys[a - |xs|] && zs[b] == ys[b - |xs|];
      } else {
        assert zs[a] == xs[a] && zs[b] == ys[b - |xs|];
      }
    }
  }

  /** A click fired by the passes numbered from `lo` to below `hi`, each
      started at or after `from`, and fired by `until`. */
  predicate InRun(f: Fired, rec: seq<Recorder.RecordedClick>, lo: int, hi: int, from: int, until: int, flag: Flag) {
    && lo <= f.pass < hi
    && f.index < |rec|
    && f.x == rec[f.index].x && f.y == rec[f.index].y
    && f.time >= f.passStart + rec[f.index].delay + SettleMs
    && from <= f.passStart <= f.time <= until
    && Running(f.time - SettleMs, flag)
  }

  /** When the worker is ready to click `c`: it takes the time it has lost
      to scheduling, then sleeps for whatever of the click's delay since
      the pass start is still to run. */
  function WakeTime(c: Recorder.RecordedClick, passStart: int, now: int, a: Attempt): (woke: int)
    ensures woke >= now + a.lagMs && woke >= passStart + c.delay
    ensures woke == now + a.lagMs || woke == passStart + c.delay
  {
    var t := now + a.lagMs;
    var wait := c.delay - (t - passStart);
    if wait > 0 then t + wait else t
  }

  /** The inner loop of `replay_worker` from recorded click `i` on, for pass
      number `pass` that started at `passStart`, with the clock at `now` and
      the trace at attempt `k`. */
  function RunPass(rec: seq<Recorder.RecordedClick>, i: nat, pass: nat, passStart: int, now: int,
                   env: seq<Attempt>, k: nat, platform: Platform, flag: Flag): (r: PassResult)
    decreases |rec| - i
    ensures r.now >= now && r.next >= k
    ensures r.end == Halted ==> !Running(r.now, flag)
    // a pass fails only at a click that failed elsewhere than on Linux
    ensures r.end == Failed ==> r.next > k && platform == OtherPlatform && AttemptAt(env, r.next - 1).outcome.PrimaryFailed?
    // and crashes only at a Linux fallback whose error escapes
    ensures r.end == Crashed ==>
              r.next > k && platform == Linux && AttemptAt(env, r.next - 1).outcome == PrimaryFailed(FallbackCrashed)
  {
    if i >= |rec| then PassResult([], now, k, Finished)
    else if !Running(now, flag) then PassResult([], now, k, Halted)
    else
      var a := AttemptAt(env, k);
      var woke := WakeTime(rec[i], passStart, now, a);
      if !Running(woke, flag) then PassResult([], woke, k + 1, Halted)
      else
        var clickAt := woke + SettleMs;
        var f := Fired(pass, i, rec[i].x, rec[i].y, passStart, clickAt);
        if platform == OtherPlatform && a.outcome.PrimaryFailed? then
          PassResult([], clickAt, k + 1, Failed)
        else if platform == Linux && a.outcome.PrimaryFailed? && a.outcome.fallback == FallbackCrashed then
          PassResult([], clickAt, k + 1, Crashed)
        else
          var rest := RunPass(rec, i + 1, pass, passStart, clickAt, env, k + 1, platform, flag);
          if Lands(a.outcome, platform) then
            PassResult([f] + rest.fired, rest.now, rest.next, rest.end)
          else
            rest
  }

  /** Every click a pass fires is at its recorded position, no earlier
      than the pass start plus its recorded delay plus the settle time, and
      decided while the flag was up; the clicks come in recorded order. */
  lemma {:induction false} RunPassShape(rec: seq<Recorder.RecordedClick>, i: nat, pass: nat, passStart: int, now: int,
                                         env: seq<Attempt>, k: nat, platform: Platform, flag: Flag)
    requires i <= |rec|
    requires passStart <= now
    decreases |rec| - i
    ensures var r := RunPass(rec, i, pass, passStart, now, env, k, platform, flag);
            && (forall j :: 0 <= j < |r.fired| ==> InPass(r.fired[j], rec, pass, passStart, i, now, r.now, flag))
            && Ordered(r.fired)
  {
    if i < |rec| && Running(now, flag) {
      var a := AttemptAt(env, k);
      var woke := WakeTime(rec[i], passStart, now, a);
      if Running(woke, flag) {
        var clickAt := woke + SettleMs;
        RunPassShape(rec, i + 1, pass, passStart, clickAt, env, k + 1, platform, flag);
        var rest := RunPass(rec, i + 1, pass, passStart, clickAt, env, k + 1, platform, flag);
        var f := Fired(pass, i, rec[i].x, rec[i].y, passStart, clickAt);
        assert InPass(f, rec, pass, passStart, i, now, rest.now, flag);
        assert forall b :: 0 <= b < |rest.fired| ==> Before(f, rest.fired[b]);
        OrderedConcat([f], rest.fired);
      }
    }
  }

  /** When the pass after `pr` begins: half a second later if the flag is
      still up and another pass remains, at once otherwise. */
  function NextStart(pr: PassResult, pass: nat, maxReplays: int, flag: Flag): int {
    if Running(pr.now, flag) && pass < maxReplays - 1 then pr.now + PauseMs else pr.now
  }

  /** The outer loop of `replay_worker` from pass number `pass` on;
      `replayCount` is the value `replay_count` holds on entry. */
  function RunPasses(rec: seq<Recorder.RecordedClick>, maxReplays: int, pass: nat, replayCount: int, now: int,
                     env: seq<Attempt>, k: nat, platform: Platform, flag: Flag): (r: ReplayRun)
    decreases maxReplays - pass
    ensures r.now >= now && r.next >= k
    ensures r.replayCount == replayCount || pass < r.replayCount <= maxReplays
    ensures r.pauses <= if maxReplays > pass then maxReplays - pass else 0
    ensures r.completed ==> Running(r.now, flag) && !r.crashed
    ensures |r.fired| > 0 ==> pass < maxReplays && Running(now, flag)
    // the outer handler is reached only through an escaping Linux fallback
    // error, and it ends the run in the pass that raised it
    ensures r.crashed ==>
              && r.next > k && platform == Linux && AttemptAt(env, r.next - 1).outcome == PrimaryFailed(FallbackCrashed)
              && pass < r.replayCount <= maxReplays
  {
    if pass >= maxReplays || !Running(now, flag) then
      ReplayRun([], replayCount, 0, Running(now, flag), false, now, k)
    else
      var pr := RunPass(rec, 0, pass, now, now, env, k, platform, flag);
      if pr.end == Crashed then
        ReplayRun(pr.fired, pass + 1, 0, false, true, pr.now, pr.next)
      else
        var after := NextStart(pr, pass, maxReplays, flag);
        var rest := RunPasses(rec, maxReplays, pass + 1, pass + 1, after, env, pr.next, platform, flag);
        ReplayRun(pr.fired + rest.fired, rest.replayCount, (if after == pr.now then 0 else 1) + rest.pauses,
                  rest.completed, rest.crashed, rest.now, rest.next)
  }

  /** Every click a run fires is at its recorded position, no earlier than
      its pass start plus its recorded delay, decided while the flag was
      up, in a pass that was begun; and the clicks come in recorded order
      within a pass, pass after pass, with a pause between passes. */
  lemma {:induction false} RunPassesShape(rec: seq<Recorder.RecordedClick>, maxReplays: int, pass: nat, replayCount: int, now: int,
                                           env: seq<Attempt>, k: nat, platform: Platform, flag: Flag)
    decreases maxReplays - pass
    ensures RunShaped(RunPasses(rec, maxReplays, pass, replayCount, now, env, k, platform, flag), rec, pass, now, flag)
  {
    if pass < maxReplays && Running(now, flag) {
      var pr := RunPass(rec, 0, pass, now, now, env, k, platform, flag);
      RunPassShape(rec, 0, pass, now, now, env, k, platform, flag);
      if pr.end != Crashed {
        var after := NextStart(pr, pass, maxReplays, flag);
        RunPassesShape(rec, maxReplays, pass + 1, pass + 1, after, env, pr.next, platform, flag);
        ShapeAfterPass(rec, maxReplays, pass, replayCount, now, env, k, platform, flag, pr, after);
      } else {
        ShapeAfterCrash(rec, maxReplays, pass, replayCount, now, env, k, platform, flag, pr);
      }
    }
  }

  /** One unfolding of the outer loop: a first pass that does not crash is
      followed by the passes after it. */
  lemma UnfoldPasses(rec: seq<Recorder.RecordedClick>, maxReplays: int, pass: nat, replayCount: int, now: int,
                     env: seq<Attempt>, k: nat, platform: Platform, flag: Flag)
    requires pass < maxReplays && Running(now, flag)
    ensures var pr := RunPass(rec, 0, pass, now, now, env, k, platform, flag);
            var after := NextStart(pr, pass, maxReplays, flag);
            var r := RunPasses(rec, maxReplays, pass, replayCount, now, env, k, platform, flag);
            var rest := RunPasses(rec, maxReplays, pass + 1, pass + 1, after, env, pr.next, platform, flag);
            pr.end != Crashed ==>
              && r.fired == pr.fired + rest.fired
              && r.replayCount == rest.replayCount
              && r.now == rest.now
              && r.pauses == (if after == pr.now then 0 else 1) + rest.pauses
              && r.completed == rest.completed && r.crashed == rest.crashed
  {
  }

  /** The bounds and order `RunPassesShape` promises of a run. */
  predicate RunShaped(r: ReplayRun, rec: seq<Recorder.RecordedClick>, pass: nat, now: int, flag: Flag) {
    && (forall j :: 0 <= j < |r.fired| ==> InRun(r.fired[j], rec, pass, r.replayCount, now, r.now, flag))
    && Ordered(r.fired)
  }

  /** The bounds and order `RunPassShape` promises of a whole pass. */
  predicate PassShaped(pr: PassResult, rec: seq<Recorder.RecordedClick>, pass: nat, now: int, flag: Flag) {
    && (forall a :: 0 <= a < |pr.fired| ==> InPass(pr.fired[a], rec, pass, now, 0, now, pr.now, flag))
    && Ordered(pr.fired)
  }

  lemma ShapeAfterPass(rec: seq<Recorder.RecordedClick>, maxReplays: int, pass: nat, replayCount: int, now: int,
                       env: seq<Attempt>, k: nat, platform: Platform, flag: Flag, pr: PassResult, after: int)
    requires pass < maxReplays && Running(now, flag)
    requires pr == RunPass(rec, 0, pass, now, now, env, k, platform, flag) && pr.end != Crashed
    requires PassShaped(pr, rec, pass, now, flag)
    requires after == NextStart(pr, pass, maxReplays, flag)
    requires RunShaped(RunPasses(rec, maxReplays, pass + 1, pass + 1, after, env, pr.next, platform, flag), rec, pass + 1, after, flag)
    ensures RunShaped(RunPasses(rec, maxReplays, pass, replayCount, now, env, k, platform, flag), rec, pass, now, flag)
  {
    var rest := RunPasses(rec, maxReplays, pass + 1, pass + 1, after, env, pr.next, platform, flag);
    UnfoldPasses(rec, maxReplays, pass, replayCount, now, env, k, platform, flag);
    assert |rest.fired| > 0 ==> after >= pr.now + PauseMs;
    JoinPasses(pr.fired, rest.fired, rec, pass, rest.replayCount, now, pr.now, after, rest.now, flag);
  }

  lemma ShapeAfterCrash(rec: seq<Recorder.RecordedClick>, maxReplays: int, pass: nat, replayCount: int, now: int,
                        env: seq<Attempt>, k: nat, platform: Platform, flag: Flag, pr: PassResult)
    requires pass < maxReplays && Running(now, flag)
    requires pr == RunPass(rec, 0, pass, now, now, env, k, platform, flag) && pr.end == Crashed
    requires PassShaped(pr, rec, pass, now, flag)
    ensures RunShaped(RunPasses(rec, maxReplays, pass, replayCount, now, env, k, platform, flag), rec, pass, now, flag)
  {
    var r := RunPasses(rec, maxReplays, pass, replayCount, now, env, k, platform, flag);
    assert r.fired == pr.fired && r.replayCount == pass + 1 && r.now == pr.now;
    JoinPasses(pr.fired, [], rec, pass, pass + 1, now, pr.now, pr.now, pr.now, flag);
    assert pr.fired + [] == pr.fired;
  }

  /** The clicks of one pass followed by those of the passes after it, the
      next begun at `after`, keep their order and their bounds. */
  lemma JoinPasses(xs: seq<Fired>, ys: seq<Fired>, rec: seq<Recorder.RecordedClick>, pass: nat, hi: int,
                   now: int, passEnd: int, after: int, until: int, flag: Flag)
    requires forall a :: 0 <= a < |xs| ==> InPass(xs[a], rec, pass, now, 0, now, passEnd, flag)
    requires forall b :: 0 <= b < |ys| ==> InRun(ys[b], rec, pass + 1, hi, after, until, flag)
    requires Ordered(xs) && Ordered(ys)
    requires pass < hi && now <= passEnd <= after <= until
    requires |ys| > 0 ==> after >= passEnd + PauseMs
    ensures forall j :: 0 <= j < |xs + ys| ==> InRun((xs + ys)[j], rec, pass, hi, now, until, flag)
    ensures Ordered(xs + ys)
  {
    assert forall a, b :: 0 <= a < |xs| && 0 <= b < |ys| ==> Before(xs[a], ys[b]);
    OrderedConcat(xs, ys);
  }

  /** `replay_worker` started at time `start`, with `replay_count` at 0 as
      `start_replay` leaves it. */
  function ReplayWorker(rec: seq<Recorder.RecordedClick>, maxReplays: int, start: int,
                        env: seq<Attempt>, platform: Platform, flag: Flag): (r: ReplayRun)
    ensures 0 <= r.replayCount <= (if maxReplays > 0 then maxReplays else 0)
    ensures !(r.completed && r.crashed)
    ensures forall j :: 0 <= j < |r.fired| ==>
              && r.fired[j].pass < r.replayCount
              && r.fired[j].index < |rec|
              && r.fired[j].time >= r.fired[j].passStart + rec[r.fired[j].index].delay
              && Running(r.fired[j].time - SettleMs, flag)
  {
    RunPassesShape(rec, maxReplays, 0, 0, start, env, 0, platform, flag);
    var r := RunPasses(rec, maxReplays, 0, 0, start, env, 0, platform, flag);
    assert forall j :: 0 <= j < |r.fired| ==> InRun(r.fired[j], rec, 0, r.replayCount, start, r.now, flag);
    r
  }

  /** The positions of a recording, in order. */
  function Targets(rec: seq<Recorder.RecordedClick>): (ps: seq<Point>)
    ensures |ps| == |rec|
    ensures forall j :: 0 <= j < |rec| ==> ps[j] == Point(rec[j].x, rec[j].y)
  {
    seq(|rec|, j requires 0 <= j < |rec| => Point(rec[j].x, rec[j].y))
  }

  /** The positions of fired clicks, in order. */
  function Positions(fired: seq<Fired>): (ps: seq<Point>)
    ensures |ps| == |fired|
    ensures forall j :: 0 <= j < |fired| ==> ps[j] == Point(fired[j].x, fired[j].y)
  {
    seq(|fired|, j requires 0 <= j < |fired| => Point(fired[j].x, fired[j].y))
  }

  /** `s` written out `n` times. */
  function Repeat<T>(s: seq<T>, n: nat): seq<T> {
    if n == 0 then [] else s + Repeat(s, n - 1)
  }

  lemma {:induction false} RepeatLength<T>(s: seq<T>, n: nat)
    ensures |Repeat(s, n)| == n * |s|
  {
    if n > 0 {
      RepeatLength(s, n - 1);
      assert n * |s| == |s| + (n - 1) * |s|;
    }
  }

  /** Every attempt of the trace clicks through the primary primitive. */
  predicate AllClick(env: seq<Attempt>) {
    forall j :: 0 <= j < |env| ==> env[j].outcome == Clicked
  }

  /** No attempt of the trace ends in an escaping fallback error. */
  predicate NoCrash(env: seq<Attempt>) {
    forall j :: 0 <= j < |env| ==> env[j].outcome != PrimaryFailed(FallbackCrashed)
  }

  /** Unstopped and with every click succeeding, a pass fires every
      remaining click of the recording, in order, consuming one attempt per
      click. */
  lemma {:induction false} CleanPassFiresAll(rec: seq<Recorder.RecordedClick>, i: nat, pass: nat, passStart: int, now: int,
                                              env: seq<Attempt>, k: nat, platform: Platform)
    requires i <= |rec| && passStart <= now
    requires AllClick(env)
    ensures var r := RunPass(rec, i, pass, passStart, now, env, k, platform, StaysUp);
            && |r.fired| == |rec| - i
            && (forall j :: 0 <= j < |r.fired| ==> r.fired[j].index == i + j)
            && r.end == Finished
            && r.next == k + (|rec| - i)
    decreases |rec| - i
  {
    if i < |rec| {
      var a := AttemptAt(env, k);
      assert a.outcome == Clicked;
      var woke := WakeTime(rec[i], passStart, now, a);
      CleanPassFiresAll(rec, i + 1, pass, passStart, woke + SettleMs, env, k + 1, platform);
      var rest := RunPass(rec, i + 1, pass, passStart, woke + SettleMs, env, k + 1, platform, StaysUp);
      var r := RunPass(rec, i, pass, passStart, now, env, k, platform, StaysUp);
      assert r.fired == [Fired(pass, i, rec[i].x, rec[i].y, passStart, woke + SettleMs)] + rest.fired;
    }
  }

  /** The positions such a pass fires are those of the recording. */
  lemma CleanPassTargets(rec: seq<Recorder.RecordedClick>, pass: nat, start: int,
                         env: seq<Attempt>, k: nat, platform: Platform)
    requires AllClick(env)
    ensures Positions(RunPass(rec, 0, pass, start, start, env, k, platform, StaysUp).fired) == Targets(rec)
  {
    var r := RunPass(rec, 0, pass, start, start, env, k, platform, StaysUp);
    CleanPassFiresAll(rec, 0, pass, start, start, env, k, platform);
    RunPassShape(rec, 0, pass, start, start, env, k, platform, StaysUp);
    assert forall j :: 0 <= j < |r.fired| ==> InPass(r.fired[j], rec, pass, start, 0, start, r.now, StaysUp);
  }

  lemma PositionsConcat(xs: seq<Fired>, ys: seq<Fired>)
    ensures Positions(xs + ys) == Positions(xs) + Positions(ys)
  {
  }

  /** The recorded indices of fired clicks, in order. */
  function Indices(fired: seq<Fired>): (ids: seq<nat>)
    ensures |ids| == |fired|
  {
    if |fired| == 0 then [] else [fired[0].index] + Indices(fired[1..])
  }

  /** The indices from `i` to below `n` whose attempts, taken in turn from
      trace position `k`, reach the screen. */
  function Landing(i: nat, n: nat, env: seq<Attempt>, k: nat, platform: Platform): (ids: seq<nat>)
    ensures forall j :: 0 <= j < |ids| ==> i <= ids[j] < n
    decreases n - i
  {
    if i >= n then []
    else (if Lands(AttemptAt(env, k).outcome, platform) then [i] else []) + Landing(i + 1, n, env, k + 1, platform)
  }

  /** On Linux, without a stop and without an escaping fallback error, a
      pass attempts every remaining click and fires exactly those whose
      attempt lands: a failed fallback only skips its own click. */
  lemma {:induction false} LinuxPassAttemptsAll(rec: seq<Recorder.RecordedClick>, i: nat, pass: nat, passStart: int, now: int,
                                                 env: seq<Attempt>, k: nat)
    requires i <= |rec| && passStart <= now
    requires NoCrash(env)
    ensures var r := RunPass(rec, i, pass, passStart, now, env, k, Linux, StaysUp);
            && r.end == Finished && r.next == k + (|rec| - i)
            && Indices(r.fired) == Landing(i, |rec|, env, k, Linux)
    decreases |rec| - i
  {
    if i < |rec| {
      var a := AttemptAt(env, k);
      var woke := WakeTime(rec[i], passStart, now, a);
      LinuxPassAttemptsAll(rec, i + 1, pass, passStart, woke + SettleMs, env, k + 1);
      var rest := RunPass(rec, i + 1, pass, passStart, woke + SettleMs, env, k + 1, Linux, StaysUp);
      if Lands(a.outcome, Linux) {
        var f := Fired(pass, i, rec[i].x, rec[i].y, passStart, woke + SettleMs);
        assert ([f] + rest.fired)[1..] == rest.fired;
      }
    }
  }

  /** Elsewhere than on Linux, the first click whose primary attempt fails
      ends its pass: the clicks before it fire, in order, and no later click
      of the pass is attempted. */
  lemma {:induction false} FailedClickEndsPass(rec: seq<Recorder.RecordedClick>, i: nat, pass: nat, passStart: int, now: int,
                                                env: seq<Attempt>, k: nat, j: nat)
    requires i + j < |rec|
    requires forall m :: k <= m < k + j ==> AttemptAt(env, m).outcome == Clicked
    requires AttemptAt(env, k + j).outcome.PrimaryFailed?
    ensures var r := RunPass(rec, i, pass, passStart, now, env, k, OtherPlatform, StaysUp);
            && r.end == Failed && r.next == k + j + 1
            && |r.fired| == j
            && forall m :: 0 <= m < j ==> r.fired[m].index == i + m
    decreases j
  {
    if j > 0 {
      var a := AttemptAt(env, k);
      assert a.outcome == Clicked;
      var woke := WakeTime(rec[i], passStart, now, a);
      FailedClickEndsPass(rec, i + 1, pass, passStart, woke + SettleMs, env, k + 1, j - 1);
      var rest := RunPass(rec, i + 1, pass, passStart, woke + SettleMs, env, k + 1, OtherPlatform, StaysUp);
      var r := RunPass(rec, i, pass, passStart, now, env, k, OtherPlatform, StaysUp);
      assert r.fired == [Fired(pass, i, rec[i].x, rec[i].y, passStart, woke + SettleMs)] + rest.fired;
    }
  }

  /** On Linux, the first attempt whose fallback error escapes ends its
      pass in the outer handler: the landing clicks before it fire, and no
      later click of the pass is attempted. */
  lemma {:induction false} EscapingErrorEndsPass(rec: seq<Recorder.RecordedClick>, i: nat, pass: nat, passStart: int, now: int,
                                                  env: seq<Attempt>, k: nat, j: nat)
    requires i + j < |rec|
    requires forall m :: k <= m < k + j ==> AttemptAt(env, m).outcome != PrimaryFailed(FallbackCrashed)
    requires AttemptAt(env, k + j).outcome == PrimaryFailed(FallbackCrashed)
    ensures var r := RunPass(rec, i, pass, passStart, now, env, k, Linux, StaysUp);
            && r.end == Crashed && r.next == k + j + 1
            && Indices(r.fired) == Landing(i, i + j, env, k, Linux)
    decreases j
  {
    if j > 0 {
      var a := AttemptAt(env, k);
      var woke := WakeTime(rec[i], passStart, now, a);
      EscapingErrorEndsPass(rec, i + 1, pass, passStart, woke + SettleMs, env, k + 1, j - 1);
      var rest := RunPass(rec, i + 1, pass, passStart, woke + SettleMs, env, k + 1, Linux, StaysUp);
      if Lands(a.outcome, Linux) {
        var f := Fired(pass, i, rec[i].x, rec[i].y, passStart, woke + SettleMs);
        assert ([f] + rest.fired)[1..] == rest.fired;
      }
    }
  }

  /** On Linux, a pass whose attempts include no escaping error finishes,
      having attempted every remaining click. */
  lemma {:induction false} LinuxPassFinishes(rec: seq<Recorder.RecordedClick>, i: nat, pass: nat, passStart: int, now: int,
                                              env: seq<Attempt>, k: nat)
    requires i <= |rec|
    requires forall m :: k <= m < k + (|rec| - i) ==> AttemptAt(env, m).outcome != PrimaryFailed(FallbackCrashed)
    ensures var r := RunPass(rec, i, pass, passStart, now, env, k, Linux, StaysUp);
            r.end == Finished && r.next == k + (|rec| - i)
    decreases |rec| - i
  {
    if i < |rec| {
      var a := AttemptAt(env, k);
      var woke := WakeTime(rec[i], passStart, now, a);
      LinuxPassFinishes(rec, i + 1, pass, passStart, woke + SettleMs, env, k + 1);
    }
  }

  /** A pass that ends in the outer handler ends the whole replay: the run
      crashes, does not complete, counts that pass as the last begun and
      fires only what that pass fired. */
  lemma CrashEndsReplay(rec: seq<Recorder.RecordedClick>, maxReplays: int, pass: nat, replayCount: int, now: int,
                        env: seq<Attempt>, k: nat, platform: Platform, flag: Flag)
    requires pass < maxReplays && Running(now, flag)
    requires RunPass(rec, 0, pass, now, now, env, k, platform, flag).end == Crashed
    ensures var pr := RunPass(rec, 0, pass, now, now, env, k, platform, flag);
            var r := RunPasses(rec, maxReplays, pass, replayCount, now, env, k, platform, flag);
            && r.crashed && !r.completed && r.replayCount == pass + 1
            && r.fired == pr.fired && r.now == pr.now
  {
  }

  /** The trace position `p` passes of `n` attempts each after `k`, that
      is `k + p * n`. */
  function Offset(k: nat, p: nat, n: nat): (r: nat)
    ensures r >= k
    decreases p
  {
    if p == 0 then k else Offset(k + n, p - 1, n)
  }

  /** Every click a pass fires belongs to that pass. */
  lemma PassFiresOwnPass(rec: seq<Recorder.RecordedClick>, pass: nat, now: int, env: seq<Attempt>, k: nat,
                         platform: Platform, flag: Flag)
    ensures forall f :: f in RunPass(rec, 0, pass, now, now, env, k, platform, flag).fired ==> f.pass == pass
  {
    var pr := RunPass(rec, 0, pass, now, now, env, k, platform, flag);
    RunPassShape(rec, 0, pass, now, now, env, k, platform, flag);
    forall f | f in pr.fired ensures f.pass == pass {
      var a :| 0 <= a < |pr.fired| && pr.fired[a] == f;
      assert InPass(pr.fired[a], rec, pass, now, 0, now, pr.now, flag);
    }
  }

  /** On Linux, the first escaping fallback error of the whole trace, at
      click `j` of pass `pass + p` (trace position `k + p * |rec| + j`),
      ends the replay there: every earlier pass is run in full, the run
      crashes without completing, `replay_count` stops at that pass, and no
      click of a later pass fires. */
  lemma {:induction false} EscapingErrorEndsReplay(rec: seq<Recorder.RecordedClick>, maxReplays: int, pass: nat,
                                                    replayCount: int, now: int, env: seq<Attempt>, k: nat, p: nat, j: nat)
    requires pass + p < maxReplays && j < |rec|
    requires forall m :: k <= m < Offset(k, p, |rec|) + j ==> AttemptAt(env, m).outcome != PrimaryFailed(FallbackCrashed)
    requires AttemptAt(env, Offset(k, p, |rec|) + j).outcome == PrimaryFailed(FallbackCrashed)
    ensures var r := RunPasses(rec, maxReplays, pass, replayCount, now, env, k, Linux, StaysUp);
            && r.crashed && !r.completed && r.replayCount == pass + p + 1
            && forall f :: f in r.fired ==> f.pass <= pass + p
    decreases p
  {
    PassFiresOwnPass(rec, pass, now, env, k, Linux, StaysUp);
    if p == 0 {
      EscapingErrorEndsPass(rec, 0, pass, now, now, env, k, j);
      CrashEndsReplay(rec, maxReplays, pass, replayCount, now, env, k, Linux, StaysUp);
    } else {
      EscapingErrorInLaterPass(rec, maxReplays, pass, replayCount, now, env, k, p, j);
    }
  }

  /** The step of `EscapingErrorEndsReplay` where the error lies beyond the
      first pass. */
  lemma {:induction false} EscapingErrorInLaterPass(rec: seq<Recorder.RecordedClick>, maxReplays: int, pass: nat,
                                                     replayCount: int, now: int, env: seq<Attempt>, k: nat, p: nat, j: nat)
    requires 0 < p && pass + p < maxReplays && j < |rec|
    requires forall m :: k <= m < Offset(k, p, |rec|) + j ==> AttemptAt(env, m).outcome != PrimaryFailed(FallbackCrashed)
    requires AttemptAt(env, Offset(k, p, |rec|) + j).outcome == PrimaryFailed(FallbackCrashed)
    ensures var r := RunPasses(rec, maxReplays, pass, replayCount, now, env, k, Linux, StaysUp);
            && r.crashed && !r.completed && r.replayCount == pass + p + 1
            && forall f :: f in r.fired ==> f.pass <= pass + p
    decreases p, 0
  {
    var pr := RunPass(rec, 0, pass, now, now, env, k, Linux, StaysUp);
    PassFiresOwnPass(rec, pass, now, env, k, Linux, StaysUp);
    assert Offset(k, p, |rec|) == Offset(k + |rec|, p - 1, |rec|);
    LinuxPassFinishes(rec, 0, pass, now, now, env, k);
    var after := NextStart(pr, pass, maxReplays, StaysUp);
    EscapingErrorEndsReplay(rec, maxReplays, pass + 1, pass + 1, after, env, k + |rec|, p - 1, j);
    UnfoldPasses(rec, maxReplays, pass, replayCount, now, env, k, Linux, StaysUp);
    var rest := RunPasses(rec, maxReplays, pass + 1, pass + 1, after, env, k + |rec|, Linux, StaysUp);
    assert forall f :: f in pr.fired + rest.fired ==> f in pr.fired || f in rest.fired;
  }

  /** Without a stop and without an escaping fallback error, every pass is
      begun, there is a pause between each two, and the worker completes:
      a failed click, which ends its own pass, does not end the replay. */
  lemma {:induction false} UnstoppedRunsEveryPass(rec: seq<Recorder.RecordedClick>, maxReplays: int, pass: nat, replayCount: int,
                                                   now: int, env: seq<Attempt>, k: nat, platform: Platform)
    requires NoCrash(env)
    requires pass < maxReplays
    ensures var r := RunPasses(rec, maxReplays, pass, replayCount, now, env, k, platform, StaysUp);
            && r.replayCount == maxReplays
            && r.pauses == maxReplays - pass - 1
            && r.completed && !r.crashed
    decreases maxReplays - pass
  {
    var pr := RunPass(rec, 0, pass, now, now, env, k, platform, StaysUp);
    NoCrashNoCrashedPass(rec, 0, pass, now, now, env, k, platform);
    var after := NextStart(pr, pass, maxReplays, StaysUp);
    UnfoldPasses(rec, maxReplays, pass, replayCount, now, env, k, platform, StaysUp);
    if pass < maxReplays - 1 {
      UnstoppedRunsEveryPass(rec, maxReplays, pass + 1, pass + 1, after, env, pr.next, platform);
    }
  }

  lemma {:induction false} NoCrashNoCrashedPass(rec: seq<Recorder.RecordedClick>, i: nat, pass: nat, passStart: int, now: int,
                                                 env: seq<Attempt>, k: nat, platform: Platform)
    requires i <= |rec| && passStart <= now
    requires NoCrash(env)
    ensures RunPass(rec, i, pass, passStart, now, env, k, platform, StaysUp).end != Crashed
    decreases |rec| - i
  {
    if i < |rec| {
      var a := AttemptAt(env, k);
      var woke := WakeTime(rec[i], passStart, now, a);
      NoCrashNoCrashedPass(rec, i + 1, pass, passStart, woke + SettleMs, env, k + 1, platform);
    }
  }

  /** Unstopped and with every click succeeding, the passes from `pass` on
      fire the recording once per pass, in order. */
  lemma {:induction false} CleanPassesRepeat(rec: seq<Recorder.RecordedClick>, maxReplays: int, pass: nat, replayCount: int,
                                              now: int, env: seq<Attempt>, k: nat, platform: Platform)
    requires AllClick(env)
    requires pass <= maxReplays
    ensures var r := RunPasses(rec, maxReplays, pass, replayCount, now, env, k, platform, StaysUp);
            Positions(r.fired) == Repeat(Targets(rec), maxReplays - pass)
    decreases maxReplays - pass
  {
    if pass < maxReplays {
      var pr := RunPass(rec, 0, pass, now, now, env, k, platform, StaysUp);
      CleanPassTargets(rec, pass, now, env, k, platform);
      NoCrashNoCrashedPass(rec, 0, pass, now, now, env, k, platform);
      var after := NextStart(pr, pass, maxReplays, StaysUp);
      CleanPassesRepeat(rec, maxReplays, pass + 1, pass + 1, after, env, pr.next, platform);
      UnfoldPasses(rec, maxReplays, pass, replayCount, now, env, k, platform, StaysUp);
      var rest := RunPasses(rec, maxReplays, pass + 1, pass + 1, after, env, pr.next, platform, StaysUp);
      PositionsConcat(pr.fired, rest.fired);
    }
  }

  /** With no stop and no failure the worker fires the recording
      `maxReplays` times in recorded order, ends with `replay_count` equal
      to `maxReplays`, pauses `maxReplays - 1` times and completes. */
  lemma CleanReplay(rec: seq<Recorder.RecordedClick>, maxReplays: nat, start: int, env: seq<Attempt>, platform: Platform)
    requires maxReplays > 0
    requires AllClick(env)
    ensures var r := ReplayWorker(rec, maxReplays, start, env, platform, StaysUp);
            && Positions(r.fired) == Repeat(Targets(rec), maxReplays)
            && |r.fired| == maxReplays * |rec|
            && r.replayCount == maxReplays
            && r.pauses == maxReplays - 1
            && r.completed
  {
    CleanPassesRepeat(rec, maxReplays, 0, 0, start, env, 0, platform);
    RepeatLength(Targets(rec), maxReplays);
    assert NoCrash(env);
    UnstoppedRunsEveryPass(rec, maxReplays, 0, 0, start, env, 0, platform);
  }

  /** A recording whose first click is at or after its start and whose
      clicks are at least the settle time apart. */
  predicate Spaced(rec: seq<Recorder.RecordedClick>) {
    && (|rec| > 0 ==> rec[0].delay >= 0)
    && forall j :: 0 <= j < |rec| - 1 ==> rec[j].delay + SettleMs <= rec[j + 1].delay
  }

  /** No attempt of the trace loses time to scheduling. */
  predicate NoLag(env: seq<Attempt>) {
    forall j :: 0 <= j < |env| ==> env[j].lagMs == 0
  }

  /** Recorded click `i`, fired in pass `pass` begun at `passStart`, at
      exactly its recorded delay after the pass start plus the settle time. */
  function OnTime(rec: seq<Recorder.RecordedClick>, i: nat, pass: nat, passStart: int): Fired
    requires i < |rec|
  {
    Fired(pass, i, rec[i].x, rec[i].y, passStart, passStart + rec[i].delay + SettleMs)
  }

  /** `f` fired at exactly the time its recorded delay gives in its pass. */
  predicate KeepsTiming(f: Fired, rec: seq<Recorder.RecordedClick>) {
    f.index < |rec| && f == OnTime(rec, f.index, f.pass, f.passStart)
  }

  /** Delays are measured from the pass start, not from the previous click:
      with no lag, no failure and clicks recorded at least the settle time
      apart, a pass fires every remaining click at exactly its recorded
      delay after the pass start plus the settle time, and ends with the
      last of them. */
  lemma {:induction false} CleanPassKeepsRecordedTiming(rec: seq<Recorder.RecordedClick>, i: nat, pass: nat, passStart: int,
                                                         now: int, env: seq<Attempt>, k: nat, platform: Platform)
    requires i <= |rec| && Spaced(rec)
    requires AllClick(env) && NoLag(env)
    requires i < |rec| ==> now <= passStart + rec[i].delay
    ensures var r := RunPass(rec, i, pass, passStart, now, env, k, platform, StaysUp);
            && |r.fired| == |rec| - i
            && (forall j :: 0 <= j < |r.fired| ==> r.fired[j] == OnTime(rec, i + j, pass, passStart))
            && r.now == (if i < |rec| then passStart + rec[|rec| - 1].delay + SettleMs else now)
    decreases |rec| - i
  {
    if i < |rec| {
      var a := AttemptAt(env, k);
      assert a.lagMs == 0 && a.outcome == Clicked;
      var woke := WakeTime(rec[i], passStart, now, a);
      assert woke == passStart + rec[i].delay;
      CleanPassKeepsRecordedTiming(rec, i + 1, pass, passStart, woke + SettleMs, env, k + 1, platform);
      var rest := RunPass(rec, i + 1, pass, passStart, woke + SettleMs, env, k + 1, platform, StaysUp);
      var r := RunPass(rec, i, pass, passStart, now, env, k, platform, StaysUp);
      assert r.fired == [OnTime(rec, i, pass, passStart)] + rest.fired;
    }
  }

  /** Every pass of such a run repeats the recording's timing from its own
      start. */
  lemma {:induction false} CleanPassesKeepRecordedTiming(rec: seq<Recorder.RecordedClick>, maxReplays: int, pass: nat,
                                                          replayCount: int, now: int, env: seq<Attempt>, k: nat,
                                                          platform: Platform)
    requires Spaced(rec) && AllClick(env) && NoLag(env)
    ensures var r := RunPasses(rec, maxReplays, pass, replayCount, now, env, k, platform, StaysUp);
            forall j :: 0 <= j < |r.fired| ==> KeepsTiming(r.fired[j], rec)
    decreases maxReplays - pass
  {
    if pass < maxReplays {
      var pr := RunPass(rec, 0, pass, now, now, env, k, platform, StaysUp);
      CleanPassKeepsRecordedTiming(rec, 0, pass, now, now, env, k, platform);
      NoCrashNoCrashedPass(rec, 0, pass, now, now, env, k, platform);
      var after := NextStart(pr, pass, maxReplays, StaysUp);
      CleanPassesKeepRecordedTiming(rec, maxReplays, pass + 1, pass + 1, after, env, pr.next, platform);
      UnfoldPasses(rec, maxReplays, pass, replayCount, now, env, k, platform, StaysUp);
      var rest := RunPasses(rec, maxReplays, pass + 1, pass + 1, after, env, pr.next, platform, StaysUp);
      assert forall j :: 0 <= j < |pr.fired| ==> KeepsTiming(pr.fired[j], rec);
      assert forall j :: 0 <= j < |pr.fired + rest.fired| ==> KeepsTiming((pr.fired + rest.fired)[j], rec);
    }
  }

  /** The replayer keeps the recorded delays relative to each pass start:
      with no lag and no failure, every click of a clean replay fires at
      its recorded delay after its pass start plus the settle time, so each
      pass is spaced like the first. */
  lemma CleanReplayKeepsRecordedTiming(rec: seq<Recorder.RecordedClick>, maxReplays: int, start: int,
                                       env: seq<Attempt>, platform: Platform)
    requires Spaced(rec) && AllClick(env) && NoLag(env)
    ensures var r := ReplayWorker(rec, maxReplays, start, env, platform, StaysUp);
            forall j :: 0 <= j < |r.fired| ==> KeepsTiming(r.fired[j], rec)
  {
    CleanPassesKeepRecordedTiming(rec, maxReplays, 0, 0, start, env, 0, platform);
    assert ReplayWorker(rec, maxReplays, start, env, platform, StaysUp)
        == RunPasses(rec, maxReplays, 0, 0, start, env, 0, platform, StaysUp);
  }

  /** A stopped pass fires a prefix of what the unstopped pass fires, and
      until the flag is found down the two agree entirely. */
  lemma {:induction false} StoppedPassIsPrefix(rec: seq<Recorder.RecordedClick>, i: nat, pass: nat, passStart: int, now: int,
                                                env: seq<Attempt>, k: nat, platform: Platform, stop: int)
    requires i <= |rec| && passStart <= now
    ensures var a := RunPass(rec, i, pass, passStart, now, env, k, platform, DownFrom(stop));
            var b := RunPass(rec, i, pass, passStart, now, env, k, platform, StaysUp);
            && a.fired <= b.fired
            && (a.end != Halted ==> a == b)
    decreases |rec| - i
  {
    if i < |rec| && now < stop {
      var at := AttemptAt(env, k);
      var woke := WakeTime(rec[i], passStart, now, at);
      if woke < stop {
        StoppedPassIsPrefix(rec, i + 1, pass, passStart, woke + SettleMs, env, k + 1, platform, stop);
      }
    }
  }

  /** `a` is `b` cut short: its clicks are a prefix of `b`'s and it has
      begun no more passes. */
  predicate CutShort(a: ReplayRun, b: ReplayRun) {
    a.fired <= b.fired && a.replayCount <= b.replayCount
  }

  /** Stopping a replay only cuts it short: the clicks fired are a prefix
      of those the unstopped replay fires, and `replay_count` is never
      ahead of it. */
  lemma {:induction false} StoppedRunIsPrefix(rec: seq<Recorder.RecordedClick>, maxReplays: int, pass: nat, replayCount: int,
                                               now: int, env: seq<Attempt>, k: nat, platform: Platform, stop: int)
    requires replayCount <= pass
    ensures var a := RunPasses(rec, maxReplays, pass, replayCount, now, env, k, platform, DownFrom(stop));
            var b := RunPasses(rec, maxReplays, pass, replayCount, now, env, k, platform, StaysUp);
            CutShort(a, b)
    decreases maxReplays - pass, 1
  {
    if pass < maxReplays && now < stop {
      var pa := RunPass(rec, 0, pass, now, now, env, k, platform, DownFrom(stop));
      if pa.end == Crashed {
        StoppedCrash(rec, maxReplays, pass, replayCount, now, env, k, platform, stop);
      } else if !Running(pa.now, DownFrom(stop)) {
        StoppedTail(rec, maxReplays, pass, replayCount, now, env, k, platform, stop);
      } else {
        StoppedContinue(rec, maxReplays, pass, replayCount, now, env, k, platform, stop);
      }
    } else {
      UnstartedIsPrefix(rec, maxReplays, pass, replayCount, now, env, k, platform, stop);
    }
  }

  /** A first pass that ends with the flag still up: both runs go on from
      the same point, and the rest follows by induction. */
  lemma {:induction false} StoppedContinue(rec: seq<Recorder.RecordedClick>, maxReplays: int, pass: nat, replayCount: int,
                                            now: int, env: seq<Attempt>, k: nat, platform: Platform, stop: int)
    requires pass < maxReplays && now < stop
    requires var pa := RunPass(rec, 0, pass, now, now, env, k, platform, DownFrom(stop));
             pa.end != Crashed && Running(pa.now, DownFrom(stop))
    ensures var a := RunPasses(rec, maxReplays, pass, replayCount, now, env, k, platform, DownFrom(stop));
            var b := RunPasses(rec, maxReplays, pass, replayCount, now, env, k, platform, StaysUp);
            CutShort(a, b)
    decreases maxReplays - pass, 0
  {
    var pa := RunPass(rec, 0, pass, now, now, env, k, platform, DownFrom(stop));
    PassAgrees(rec, pass, now, env, k, platform, stop);
    var after := NextStart(pa, pass, maxReplays, DownFrom(stop));
    assert after == NextStart(pa, pass, maxReplays, StaysUp);
    StoppedRunIsPrefix(rec, maxReplays, pass + 1, pass + 1, after, env, pa.next, platform, stop);
    var ra := RunPasses(rec, maxReplays, pass + 1, pass + 1, after, env, pa.next, platform, DownFrom(stop));
    var rb := RunPasses(rec, maxReplays, pass + 1, pass + 1, after, env, pa.next, platform, StaysUp);
    UnfoldPasses(rec, maxReplays, pass, replayCount, now, env, k, platform, DownFrom(stop));
    UnfoldPasses(rec, maxReplays, pass, replayCount, now, env, k, platform, StaysUp);
    PrefixExtend(pa.fired, ra.fired, rb.fired);
  }

  /** A first pass that does not find the flag down is the same stopped
      or not. */
  lemma PassAgrees(rec: seq<Recorder.RecordedClick>, pass: nat, now: int, env: seq<Attempt>, k: nat, platform: Platform, stop: int)
    requires var pa := RunPass(rec, 0, pass, now, now, env, k, platform, DownFrom(stop));
             pa.end != Crashed && Running(pa.now, DownFrom(stop))
    ensures RunPass(rec, 0, pass, now, now, env, k, platform, DownFrom(stop))
         == RunPass(rec, 0, pass, now, now, env, k, platform, StaysUp)
  {
    StoppedPassIsPrefix(rec, 0, pass, now, now, env, k, platform, stop);
  }

  /** A run that crashes in its first pass crashes the same way stopped or not. */
  lemma StoppedCrash(rec: seq<Recorder.RecordedClick>, maxReplays: int, pass: nat, replayCount: int,
                     now: int, env: seq<Attempt>, k: nat, platform: Platform, stop: int)
    requires pass < maxReplays && now < stop
    requires RunPass(rec, 0, pass, now, now, env, k, platform, DownFrom(stop)).end == Crashed
    ensures var a := RunPasses(rec, maxReplays, pass, replayCount, now, env, k, platform, DownFrom(stop));
            var b := RunPasses(rec, maxReplays, pass, replayCount, now, env, k, platform, StaysUp);
            a.fired == b.fired && a.replayCount == b.replayCount
  {
    StoppedPassIsPrefix(rec, 0, pass, now, now, env, k, platform, stop);
  }

  /** A stopped run that begins no pass fires nothing. */
  lemma UnstartedIsPrefix(rec: seq<Recorder.RecordedClick>, maxReplays: int, pass: nat, replayCount: int,
                          now: int, env: seq<Attempt>, k: nat, platform: Platform, stop: int)
    requires replayCount <= pass
    requires !(pass < maxReplays && now < stop)
    ensures var a := RunPasses(rec, maxReplays, pass, replayCount, now, env, k, platform, DownFrom(stop));
            var b := RunPasses(rec, maxReplays, pass, replayCount, now, env, k, platform, StaysUp);
            a.fired == [] && a.replayCount <= b.replayCount
  {
  }

  lemma PrefixExtend<T>(xs: seq<T>, ys: seq<T>, zs: seq<T>)
    requires ys <= zs
    ensures xs + ys <= xs + zs
  {
    assert forall j :: 0 <= j < |xs + ys| ==> (xs + ys)[j] == (xs + zs)[j];
  }

  /** When the flag is found down during or right after a pass, the stopped
      run fires only what that pass fired and begins no further pass, so
      it is a prefix of the unstopped run. */
  lemma StoppedTail(rec: seq<Recorder.RecordedClick>, maxReplays: int, pass: nat, replayCount: int,
                    now: int, env: seq<Attempt>, k: nat, platform: Platform, stop: int)
    requires pass < maxReplays && now < stop
    requires !Running(RunPass(rec, 0, pass, now, now, env, k, platform, DownFrom(stop)).now, DownFrom(stop))
    requires RunPass(rec, 0, pass, now, now, env, k, platform, DownFrom(stop)).end != Crashed
    ensures var a := RunPasses(rec, maxReplays, pass, replayCount, now, env, k, platform, DownFrom(stop));
            var b := RunPasses(rec, maxReplays, pass, replayCount, now, env, k, platform, StaysUp);
            CutShort(a, b)
  {
    StoppedPassIsPrefix(rec, 0, pass, now, now, env, k, platform, stop);
    StoppedRunEnds(rec, maxReplays, pass, replayCount, now, env, k, platform, stop);
    UnstoppedRunExtends(rec, maxReplays, pass, replayCount, now, env, k, platform);
    var pa := RunPass(rec, 0, pass, now, now, env, k, platform, DownFrom(stop));
    var pb := RunPass(rec, 0, pass, now, now, env, k, platform, StaysUp);
    var b := RunPasses(rec, maxReplays, pass, replayCount, now, env, k, platform, StaysUp);
    PrefixTrans(pa.fired, pb.fired, b.fired);
  }

  /** A stopped run whose first pass finds the flag down ends with it. */
  lemma StoppedRunEnds(rec: seq<Recorder.RecordedClick>, maxReplays: int, pass: nat, replayCount: int,
                       now: int, env: seq<Attempt>, k: nat, platform: Platform, stop: int)
    requires pass < maxReplays && now < stop
    requires !Running(RunPass(rec, 0, pass, now, now, env, k, platform, DownFrom(stop)).now, DownFrom(stop))
    requires RunPass(rec, 0, pass, now, now, env, k, platform, DownFrom(stop)).end != Crashed
    ensures var a := RunPasses(rec, maxReplays, pass, replayCount, now, env, k, platform, DownFrom(stop));
            a.fired == RunPass(rec, 0, pass, now, now, env, k, platform, DownFrom(stop)).fired && a.replayCount == pass + 1
  {
    var pa := RunPass(rec, 0, pass, now, now, env, k, platform, DownFrom(stop));
    UnfoldPasses(rec, maxReplays, pass, replayCount, now, env, k, platform, DownFrom(stop));
  }

  /** An unstopped run that begins its first pass fires at least what that
      pass fires and counts it. */
  lemma UnstoppedRunExtends(rec: seq<Recorder.RecordedClick>, maxReplays: int, pass: nat, replayCount: int,
                            now: int, env: seq<Attempt>, k: nat, platform: Platform)
    requires pass < maxReplays
    ensures var pb := RunPass(rec, 0, pass, now, now, env, k, platform, StaysUp);
            var b := RunPasses(rec, maxReplays, pass, replayCount, now, env, k, platform, StaysUp);
            pb.fired <= b.fired && b.replayCount >= pass + 1
  {
    var pb := RunPass(rec, 0, pass, now, now, env, k, platform, StaysUp);
    if pb.end != Crashed {
      var after := NextStart(pb, pass, maxReplays, StaysUp);
      UnfoldPasses(rec, maxReplays, pass, replayCount, now, env, k, platform, StaysUp);
      var rb := RunPasses(rec, maxReplays, pass + 1, pass + 1, after, env, pb.next, platform, StaysUp);
      PrefixOfLonger(pb.fired, pb.fired, rb.fired);
    }
  }

  lemma PrefixTrans<T>(xs: seq<T>, ys: seq<T>, zs: seq<T>)
    requires xs <= ys && ys <= zs
    ensures xs <= zs
  {
    assert forall j :: 0 <= j < |xs| ==> xs[j] == ys[j] == zs[j];
  }

  lemma PrefixOfLonger<T>(xs: seq<T>, ys: seq<T>, zs: seq<T>)
    requires xs <= ys
    ensures xs <= ys + zs
  {
    assert forall j :: 0 <= j < |xs| ==> xs[j] == (ys + zs)[j];
  }

  /** As written, a worker that `stop_replay` has stopped while it sleeps
      towards its next click is revived when `start_replay` raises the flag
      again before it wakes: recorded clicks at 0 ms and 10 s, stopped at
      2 s and restarted at 3 s, and the old worker still clicks the second
      point, long after the stop, and then reports its session completed. */
  lemma RestartRevivesStoppedWorker(platform: Platform)
    ensures var rec := [Recorder.RecordedClick(0, 0, 0), Recorder.RecordedClick(5, 5, 10000)];
            var r := ReplayWorker(rec, 1, 0, [], platform, DownBetween(2000, 3000));
            && |r.fired| == 2
            && r.fired[1].x == 5 && r.fired[1].time - SettleMs >= 2000
            && r.completed
  {
    var rec := [Recorder.RecordedClick(0, 0, 0), Recorder.RecordedClick(5, 5, 10000)];
    var flag := DownBetween(2000, 3000);
    var second := RunPass(rec, 1, 0, 0, SettleMs, [], 1, platform, flag);
    assert second.fired == [Fired(0, 1, 5, 5, 0, 10000 + SettleMs)] + RunPass(rec, 2, 0, 0, 10000 + SettleMs, [], 2, platform, flag).fired;
    var pass := RunPass(rec, 0, 0, 0, 0, [], 0, platform, flag);
    assert pass.fired == [Fired(0, 0, 0, 0, 0, SettleMs)] + second.fired;
    assert pass.now == 10000 + SettleMs;
  }

  /** The flag a worker should read: `replaying` together with a check that
      the session it belongs to is still the current one. A later
      `start_replay` begins another session, so for this worker a stop is
      final. */
  function SessionFlag(flag: Flag): (f: Flag)
    requires ValidFlag(flag)
    ensures !flag.DownBetween? ==> f == flag
    ensures flag.DownBetween? ==> f == DownFrom(flag.stop)
    ensures forall t :: Running(t, f) ==> Running(t, flag)
  {
    match flag
    case DownBetween(stop, _) => DownFrom(stop)
    case _ => flag
  }

  /** `replay_worker` reading its own session's flag: after a stop, whether
      or not another replay is started, it fires nothing decided after the
      stop, and its run is the unstopped run cut short. */
  function ReplayWorkerCorrected(rec: seq<Recorder.RecordedClick>, maxReplays: int, start: int,
                                 env: seq<Attempt>, platform: Platform, flag: Flag): (r: ReplayRun)
    requires ValidFlag(flag)
    ensures 0 <= r.replayCount <= (if maxReplays > 0 then maxReplays else 0)
    ensures !(r.completed && r.crashed)
    ensures !flag.StaysUp? ==> forall j :: 0 <= j < |r.fired| ==> r.fired[j].time - SettleMs < flag.stop
    ensures !flag.StaysUp? ==> CutShort(r, ReplayWorker(rec, maxReplays, start, env, platform, StaysUp))
    ensures flag.StaysUp? ==> r == ReplayWorker(rec, maxReplays, start, env, platform, StaysUp)
  {
    var r := ReplayWorker(rec, maxReplays, start, env, platform, SessionFlag(flag));
    assert !flag.StaysUp? ==> CutShort(r, ReplayWorker(rec, maxReplays, start, env, platform, StaysUp)) by {
      if !flag.StaysUp? {
        StoppedRunIsPrefix(rec, maxReplays, 0, 0, start, env, 0, platform, flag.stop);
      }
    }
    r
  }

  /** The revived worker of the example above, reading its own session's
      flag instead, stops at its second click. */
  lemma CorrectedWorkerStaysStopped(platform: Platform)
    ensures var rec := [Recorder.RecordedClick(0, 0, 0), Recorder.RecordedClick(5, 5, 10000)];
            var r := ReplayWorkerCorrected(rec, 1, 0, [], platform, DownBetween(2000, 3000));
            && |r.fired| == 1 && !r.completed
  {
    var rec := [Recorder.RecordedClick(0, 0, 0), Recorder.RecordedClick(5, 5, 10000)];
    var flag := DownFrom(2000);
    var second := RunPass(rec, 1, 0, 0, SettleMs, [], 1, platform, flag);
    assert second.fired == [] && second.now == 10000;
    var pass := RunPass(rec, 0, 0, 0, 0, [], 0, platform, flag);
    assert pass.fired == [Fired(0, 0, 0, 0, 0, SettleMs)] + second.fired;
  }

  /** The recorder state after a replay session: `start_replay` at `start`
      with the count entry `count`, then the worker's run as written.
      Whether the worker ends by completing, by its outer handler or by a
      stop, the flag ends down and `replay_count` holds the passes begun;
      after a stop that no new replay follows, no click was decided after
      the stop. */
  function ReplaySession(s: Recorder.State, count: Parse, start: int, env: seq<Attempt>,
                         platform: Platform, flag: Flag): (r: (Recorder.State, Recorder.Reply, seq<Fired>))
    ensures r.1.Refused? ==> r.0 == Recorder.StartReplay(s, count).0 && r.2 == []
    ensures r.1 == Recorder.Accepted ==>
              && !r.0.replaying && !r.0.recording
              && r.0.recorded == s.recorded
              && 0 <= r.0.replayCount <= r.0.maxReplays
              && count.Int? && r.0.maxReplays == count.i
    ensures Recorder.Exclusive(s) ==> Recorder.Exclusive(r.0)
    ensures flag.DownFrom? ==> forall j :: 0 <= j < |r.2| ==> r.2[j].time - SettleMs < flag.stop
  {
    Session(s, count, start, env, platform, flag, false)
  }

  /** The same session with the worker reading its own session's flag:
      whether or not another replay is started, no click is decided after
      a stop. */
  function ReplaySessionCorrected(s: Recorder.State, count: Parse, start: int, env: seq<Attempt>,
                                  platform: Platform, flag: Flag): (r: (Recorder.State, Recorder.Reply, seq<Fired>))
    requires ValidFlag(flag)
    ensures r.1.Refused? ==> r.0 == Recorder.StartReplay(s, count).0 && r.2 == []
    ensures r.1 == Recorder.Accepted ==>
              && !r.0.replaying && !r.0.recording
              && r.0.recorded == s.recorded
              && 0 <= r.0.replayCount <= r.0.maxReplays
              && count.Int? && r.0.maxReplays == count.i
    ensures Recorder.Exclusive(s) ==> Recorder.Exclusive(r.0)
    ensures !flag.StaysUp? ==> forall j :: 0 <= j < |r.2| ==> r.2[j].time - SettleMs < flag.stop
    ensures !flag.DownBetween? ==> r == ReplaySession(s, count, start, env, platform, flag)
  {
    Session(s, count, start, env, platform, flag, true)
  }

  /** `start_replay`, then the worker's run, either as written or reading
      its own session's flag, then `replay_completed` or `stop_replay`. */
  function Session(s: Recorder.State, count: Parse, start: int, env: seq<Attempt>,
                   platform: Platform, flag: Flag, corrected: bool): (Recorder.State, Recorder.Reply, seq<Fired>)
    requires corrected ==> ValidFlag(flag)
  {
    var (started, reply) := Recorder.StartReplay(s, count);
    if reply.Refused? then (started, reply, [])
    else
      var run :=
        if corrected then ReplayWorkerCorrected(started.recorded, started.maxReplays, start, env, platform, flag)
        else ReplayWorker(started.recorded, started.maxReplays, start, env, platform, flag);
      var progressed := started.(replayCount := run.replayCount);
      var finished :=
        if run.completed then Recorder.ReplayCompleted(progressed).0
        else Recorder.StopReplay(progressed).0;
      (finished, reply, run.fired)
  }
}

=== FILE: scheduler.dfy ===
/** The multi-clicker: the per-slot state of a clicker section, the
    controller that starts, stops, toggles and resets the slots, and one
    worker loop per running slot. Threads become explicit steps: a worker
    is advanced one loop iteration at a time, and the outcome of each click
    attempt is supplied by the caller in place of the input driver. */
module Scheduler {
  import opened Common
  import Interval

  /** One clicker section. `id` is its section number. */
  datatype Slot = Slot(
    id: nat,
    enabled: bool,
    fields: Interval.Fields,
    coordinates: Option<Point>,
    clickCount: nat,
    isActive: bool)

  /** The controller: the slots, the global flag, the ids of the workers
      currently inside their loop, and the ids that have a worker thread
      (the keys of the thread table). */
  datatype Controller = Controller(
    slots: seq<Slot>,
    globalActive: bool,
    activeClickers: set<nat>,
    workers: set<nat>)

  /** What a start request reports. */
  datatype StartOutcome = NothingEnabled | MissingTargets(ids: seq<nat>) | Started

  /** The number of clicker sections the application creates. */
  const SlotCount: nat := 3

  predicate UniqueIds(slots: seq<Slot>) {
    forall i, j :: 0 <= i < |slots| && 0 <= j < |slots| && i != j ==> slots[i].id != slots[j].id
  }

  /** A fresh section: disabled, interval "0", "1", "0", no target, no clicks. */
  function NewSlot(id: nat): (s: Slot)
    ensures s.id == id && !s.enabled && !s.isActive && s.clickCount == 0
    ensures s.coordinates == None && Interval.TotalMilliseconds(s.fields) == 1000
  {
    Slot(id, false, Interval.DefaultFields(), None, 0, false)
  }

  /** The application at start-up: sections 1, 2 and 3, nothing running. */
  function Initial(): (c: Controller)
    ensures |c.slots| == SlotCount && UniqueIds(c.slots)
    ensures forall i :: 0 <= i < |c.slots| ==> c.slots[i] == NewSlot(i + 1)
    ensures !c.globalActive && c.activeClickers == {} && c.workers == {}
  {
    Controller([NewSlot(1), NewSlot(2), NewSlot(3)], false, {}, {})
  }

  /** `_on_enabled_change`: disabling a section also marks it inactive. */
  function SetEnabled(s: Slot, on: bool): (r: Slot)
    ensures r.enabled == on
    ensures !on ==> !r.isActive
    ensures on ==> r.isActive == s.isActive
    ensures r.(enabled := s.enabled, isActive := s.isActive) == s
  {
    if on then s.(enabled := true) else s.(enabled := false, isActive := false)
  }

  /** `update_status`: sets the active flag and, when given, the click count. */
  function UpdateStatus(s: Slot, active: bool, count: Option<nat>): (r: Slot)
    ensures r.isActive == active
    ensures count.Some? ==> r.clickCount == count.value
    ensures count.None? ==> r.clickCount == s.clickCount
    ensures r.(isActive := s.isActive, clickCount := s.clickCount) == s
  {
    match count
    case Some(n) => s.(isActive := active, clickCount := n)
    case None => s.(isActive := active)
  }

  /** A later status update overrides an earlier one: the active flag is
      the later one's, and the count the later one's when it gives one. */
  lemma UpdateStatusOverrides(s: Slot, a1: bool, n1: Option<nat>, a2: bool, n2: Option<nat>)
    ensures UpdateStatus(UpdateStatus(s, a1, n1), a2, n2) == UpdateStatus(s, a2, if n2.Some? then n2 else n1)
  {
  }

  /** `reset_clicker`: interval back to one second, no target, no clicks,
      inactive; the enabled box is left as it is. */
  function ResetSlot(s: Slot): (r: Slot)
    ensures r.fields == Interval.DefaultFields() && Interval.TotalMilliseconds(r.fields) == 1000
    ensures r.coordinates == None && r.clickCount == 0 && !r.isActive
    ensures r.id == s.id && r.enabled == s.enabled
  {
    UpdateStatus(s.(fields := Interval.DefaultFields(), coordinates := None, clickCount := 0), false, Some(0))
  }

  /** The ids of the enabled sections. */
  function EnabledIds(slots: seq<Slot>): set<nat> {
    set i | 0 <= i < |slots| && slots[i].enabled :: slots[i].id
  }

  lemma EnabledIdsCons(slots: seq<Slot>)
    requires |slots| > 0
    ensures EnabledIds(slots) == (if slots[0].enabled then {slots[0].id} else {}) + EnabledIds(slots[1..])
  {
    assert forall i :: 1 <= i < |slots| ==> slots[i] == slots[1..][i - 1];
  }

  predicate HasEnabled(slots: seq<Slot>) {
    exists i :: 0 <= i < |slots| && slots[i].enabled
  }

  /** The section numbers of the enabled sections that have no target, in
      section order. */
  function IdsWithoutTarget(slots: seq<Slot>): (ids: seq<nat>)
    ensures |ids| <= |slots|
    ensures |ids| == 0 <==> forall i :: 0 <= i < |slots| && slots[i].enabled ==> slots[i].coordinates.Some?
  {
    if |slots| == 0 then []
    else
      var rest := IdsWithoutTarget(slots[1..]);
      assert forall i :: 1 <= i < |slots| ==> slots[i] == slots[1..][i - 1];
      if slots[0].enabled && slots[0].coordinates.None? then [slots[0].id] + rest else rest
  }

  /** A section the start request complains about. */
  predicate LacksTarget(s: Slot) {
    s.enabled && s.coordinates.None?
  }

  /** The reported ids are exactly those of the enabled sections without a
      target. */
  lemma {:induction false} IdsWithoutTargetMembers(slots: seq<Slot>)
    ensures forall id :: id in IdsWithoutTarget(slots) <==>
              exists i :: 0 <= i < |slots| && LacksTarget(slots[i]) && slots[i].id == id
  {
    if |slots| > 0 {
      var tail := slots[1..];
      IdsWithoutTargetMembers(tail);
      assert forall i :: 1 <= i < |slots| ==> slots[i] == tail[i - 1];
      var ids := IdsWithoutTarget(slots);
      var rest := IdsWithoutTarget(tail);
      forall id | id in ids
        ensures exists i :: 0 <= i < |slots| && LacksTarget(slots[i]) && slots[i].id == id
      {
        if !(LacksTarget(slots[0]) && slots[0].id == id) {
          assert id in rest;
          var j :| 0 <= j < |tail| && LacksTarget(tail[j]) && tail[j].id == id;
          assert slots[j + 1] == tail[j];
        }
      }
      forall id | exists i :: 0 <= i < |slots| && LacksTarget(slots[i]) && slots[i].id == id
        ensures id in ids
      {
        var i :| 0 <= i < |slots| && LacksTarget(slots[i]) && slots[i].id == id;
        if i > 0 {
          assert tail[i - 1] == slots[i];
          assert id in rest;
        }
      }
    }
  }

  /** The position of the first section numbered `id`, or `|slots|` if
      there is none. */
  function SlotIndex(slots: seq<Slot>, id: nat): (r: nat)
    ensures r <= |slots|
    ensures r < |slots| ==> slots[r].id == id
    ensures forall j :: 0 <= j < r ==> slots[j].id != id
  {
    if |slots| == 0 then 0
    else if slots[0].id == id then 0
    else
      var r := SlotIndex(slots[1..], id);
      assert forall j :: 1 <= j < |slots| ==> slots[j] == slots[1..][j - 1];
      1 + r
  }

  /** The ids in `ids` name sections in increasing position. */
  predicate ListedInOrder(ids: seq<nat>, slots: seq<Slot>) {
    forall p, q :: 0 <= p < q < |ids| ==> SlotIndex(slots, ids[p]) < SlotIndex(slots, ids[q])
  }

  /** An id reported for the sections after the first is not the first
      section's id. */
  lemma TailIdsAfterFirst(slots: seq<Slot>)
    requires |slots| > 0 && UniqueIds(slots)
    ensures forall q :: 0 <= q < |IdsWithoutTarget(slots[1..])| ==>
              IdsWithoutTarget(slots[1..])[q] != slots[0].id
  {
    var tail := slots[1..];
    var rest := IdsWithoutTarget(tail);
    IdsWithoutTargetMembers(tail);
    forall q | 0 <= q < |rest|
      ensures rest[q] != slots[0].id
    {
      assert rest[q] in rest;
      var j :| 0 <= j < |tail| && LacksTarget(tail[j]) && tail[j].id == rest[q];
      assert slots[j + 1] == tail[j];
    }
  }

  /** The reported ids come in section order. */
  lemma {:induction false} IdsWithoutTargetOrdered(slots: seq<Slot>)
    requires UniqueIds(slots)
    ensures ListedInOrder(IdsWithoutTarget(slots), slots)
  {
    if |slots| > 0 {
      var tail := slots[1..];
      assert forall i :: 1 <= i < |slots| ==> slots[i] == tail[i - 1];
      assert UniqueIds(tail);
      IdsWithoutTargetOrdered(tail);
      TailIdsAfterFirst(slots);
      var ids := IdsWithoutTarget(slots);
      var rest := IdsWithoutTarget(tail);
      var off := if LacksTarget(slots[0]) then 1 else 0;
      assert ids == if off == 1 then [slots[0].id] + rest else rest;
      forall p, q | 0 <= p < q < |ids|
        ensures SlotIndex(slots, ids[p]) < SlotIndex(slots, ids[q])
      {
        assert ids[q] == rest[q - off];
        assert SlotIndex(slots, ids[q]) == 1 + SlotIndex(tail, rest[q - off]);
        if p >= off {
          assert ids[p] == rest[p - off];
          assert SlotIndex(slots, ids[p]) == 1 + SlotIndex(tail, rest[p - off]);
        }
      }
    }
  }

  /** The spawning loop of `start_all_clickers`: each enabled section whose
      id has no worker yet gets one and is marked active. */
  function SpawnWorkers(slots: seq<Slot>, workers: set<nat>): (r: (seq<Slot>, set<nat>))
    ensures |r.0| == |slots|
    ensures r.1 == workers + EnabledIds(slots)
    ensures forall i :: 0 <= i < |slots| ==>
              r.0[i].(isActive := slots[i].isActive) == slots[i]
  {
    if |slots| == 0 then ([], workers)
    else
      var s := slots[0];
      var spawn := s.enabled && s.id !in workers;
      var head := if spawn then UpdateStatus(s, true, None) else s;
      var rest := SpawnWorkers(slots[1..], if spawn then workers + {s.id} else workers);
      assert forall i :: 1 <= i < |slots| ==> slots[i] == slots[1..][i - 1];
      EnabledIdsCons(slots);
      ([head] + rest.0, rest.1)
  }

  /** With distinct section numbers, a section ends up active exactly when
      it was active or is enabled and had no worker. */
  lemma {:induction false} SpawnWorkersActivates(slots: seq<Slot>, workers: set<nat>)
    requires UniqueIds(slots)
    ensures var r := SpawnWorkers(slots, workers);
            forall i :: 0 <= i < |slots| ==>
              r.0[i].isActive == (slots[i].isActive || (slots[i].enabled && slots[i].id !in workers))
  {
    if |slots| > 0 {
      var s := slots[0];
      var spawn := s.enabled && s.id !in workers;
      var workers' := if spawn then workers + {s.id} else workers;
      var tail := slots[1..];
      assert forall i :: 1 <= i < |slots| ==> slots[i] == tail[i - 1];
      assert UniqueIds(tail);
      SpawnWorkersActivates(tail, workers');
      var r := SpawnWorkers(slots, workers);
      var rest := SpawnWorkers(tail, workers');
      assert r.0 == [if spawn then UpdateStatus(s, true, None) else s] + rest.0;
      forall i | 1 <= i < |slots|
        ensures r.0[i].isActive == (slots[i].isActive || (slots[i].enabled && slots[i].id !in workers))
      {
        assert r.0[i] == rest.0[i - 1];
        assert slots[i].id != s.id;
      }
    }
  }

  /** `start_all_clickers`. */
  function StartAll(c: Controller): (r: (Controller, StartOutcome))
    ensures !HasEnabled(c.slots) ==> r == (c, NothingEnabled)
    ensures r.1.MissingTargets? ==> r.0 == c && r.1.ids == IdsWithoutTarget(c.slots) && |r.1.ids| > 0
    ensures r.1 == Started <==> HasEnabled(c.slots) && forall i :: 0 <= i < |c.slots| && c.slots[i].enabled ==> c.slots[i].coordinates.Some?
    ensures r.1 == Started ==>
              && r.0.globalActive
              && r.0.activeClickers == c.activeClickers
              && r.0.workers == c.workers + EnabledIds(c.slots)
              && |r.0.slots| == |c.slots|
              && (forall i :: 0 <= i < |c.slots| ==> r.0.slots[i].(isActive := c.slots[i].isActive) == c.slots[i])
              && (UniqueIds(c.slots) ==> forall i :: 0 <= i < |c.slots| ==>
                    r.0.slots[i].isActive == (c.slots[i].isActive || (c.slots[i].enabled && c.slots[i].id !in c.workers)))
  {
    if !HasEnabled(c.slots) then (c, NothingEnabled)
    else
      var missing := IdsWithoutTarget(c.slots);
      if |missing| > 0 then (c, MissingTargets(missing))
      else
        var spawned := SpawnWorkers(c.slots, c.workers);
        assert UniqueIds(c.slots) ==> forall i :: 0 <= i < |c.slots| ==>
          spawned.0[i].isActive == (c.slots[i].isActive || (c.slots[i].enabled && c.slots[i].id !in c.workers)) by {
          if UniqueIds(c.slots) {
            SpawnWorkersActivates(c.slots, c.workers);
          }
        }
        (c.(globalActive := true, slots := spawned.0, workers := spawned.1), Started)
  }

  /** A start request with some section enabled but lacking a target
      changes nothing and names exactly those sections, in section order. */
  lemma StartAllReportsMissingTargets(c: Controller)
    requires UniqueIds(c.slots)
    ensures var (c', outcome) := StartAll(c);
            && (outcome.MissingTargets? <==> HasEnabled(c.slots) && exists i :: 0 <= i < |c.slots| && LacksTarget(c.slots[i]))
            && (outcome.MissingTargets? ==>
                  && c' == c
                  && (forall id :: id in outcome.ids <==> exists i :: 0 <= i < |c.slots| && LacksTarget(c.slots[i]) && c.slots[i].id == id)
                  && ListedInOrder(outcome.ids, c.slots))
  {
    IdsWithoutTargetMembers(c.slots);
    IdsWithoutTargetOrdered(c.slots);
  }

  /** `stop_all_clickers`: the global flag drops, the running set empties
      and every section is marked inactive; worker threads are left to
      notice the flag themselves. */
  function StopAll(c: Controller): (r: Controller)
    ensures !r.globalActive && r.activeClickers == {} && r.workers == c.workers
    ensures |r.slots| == |c.slots|
    ensures forall i :: 0 <= i < |c.slots| ==> r.slots[i] == c.slots[i].(isActive := false)
  {
    c.(globalActive := false, activeClickers := {},
       slots := seq(|c.slots|, i requires 0 <= i < |c.slots| => UpdateStatus(c.slots[i], false, None)))
  }

  /** Stopping twice is stopping once. */
  lemma StopAllIdempotent(c: Controller)
    ensures StopAll(StopAll(c)) == StopAll(c)
  {
    var once := StopAll(c);
    assert StopAll(once).slots == once.slots;
  }

  /** `toggle_clickers`: stop when running, start otherwise. */
  function Toggle(c: Controller): (r: (Controller, Option<StartOutcome>))
    ensures c.globalActive ==> !r.0.globalActive && r.0.activeClickers == {} && r.1 == None
    // stopping marks every section inactive and keeps the thread table
    ensures c.globalActive ==>
              && r.0.workers == c.workers && |r.0.slots| == |c.slots|
              && forall i :: 0 <= i < |c.slots| ==> r.0.slots[i] == c.slots[i].(isActive := false)
    ensures !c.globalActive ==> r.1.Some? && (r.0.globalActive <==> r.1.value == Started)
    // starting is subject to the same guards as the start button
    ensures !c.globalActive ==>
              (r.1 == Some(Started) <==>
                 HasEnabled(c.slots) && forall i :: 0 <= i < |c.slots| && c.slots[i].enabled ==> c.slots[i].coordinates.Some?)
    ensures !c.globalActive && !HasEnabled(c.slots) ==> r.1 == Some(NothingEnabled)
    ensures !c.globalActive && r.1.Some? && r.1.value.MissingTargets? ==> r.1.value.ids == IdsWithoutTarget(c.slots)
    ensures !c.globalActive && r.1 != Some(Started) ==> r.0 == c
  {
    if c.globalActive then (StopAll(c), None)
    else
      var (c', outcome) := StartAll(c);
      (c', Some(outcome))
  }

  /** `reset_all_clickers`: stop everything, then reset every section. */
  function ResetAll(c: Controller): (r: Controller)
    ensures !r.globalActive && r.activeClickers == {} && r.workers == c.workers
    ensures |r.slots| == |c.slots|
    ensures forall i :: 0 <= i < |c.slots| ==>
              && r.slots[i].id == c.slots[i].id && r.slots[i].enabled == c.slots[i].enabled
              && r.slots[i].fields == Interval.DefaultFields() && r.slots[i].coordinates == None
              && r.slots[i].clickCount == 0 && !r.slots[i].isActive
  {
    var stopped := StopAll(c);
    stopped.(slots := seq(|stopped.slots|, i requires 0 <= i < |stopped.slots| => ResetSlot(stopped.slots[i])))
  }

  /** Resetting twice is resetting once. */
  lemma ResetAllIdempotent(c: Controller)
    ensures ResetAll(ResetAll(c)) == ResetAll(c)
  {
    var once := ResetAll(c);
    assert ResetAll(once).slots == once.slots;
  }

  function SetSlot(c: Controller, idx: nat, s: Slot): Controller
    requires idx < |c.slots|
  {
    c.(slots := c.slots[idx := s])
  }

  /** What one pass of a worker's loop does: it clicks at `target` and then
      sleeps `sleepMs`, or it leaves the loop, having clicked at `clicked`
      first when it was the sleep that failed. */
  datatype Step = Continue(state: Controller, target: Point, sleepMs: int) | Exit(state: Controller, clicked: Option<Point>)

  /** A worker thread starting: its section joins the running set. */
  function WorkerEnter(c: Controller, idx: nat): (r: Controller)
    requires idx < |c.slots|
    ensures r.activeClickers == c.activeClickers + {c.slots[idx].id}
    ensures r.(activeClickers := c.activeClickers) == c
  {
    c.(activeClickers := c.activeClickers + {c.slots[idx].id})
  }

  /** The clean-up after a worker's loop: its id leaves the running set and
      the thread table, and its section is marked inactive. */
  function WorkerExit(c: Controller, idx: nat): (r: Controller)
    requires idx < |c.slots|
    ensures r.activeClickers == c.activeClickers - {c.slots[idx].id}
    ensures r.workers == c.workers - {c.slots[idx].id}
    ensures r.globalActive == c.globalActive
    ensures r.slots == c.slots[idx := c.slots[idx].(isActive := false)]
  {
    var id := c.slots[idx].id;
    var c' := c.(activeClickers := c.activeClickers - {id}, workers := c.workers - {id});
    SetSlot(c', idx, UpdateStatus(c.slots[idx], false, None))
  }

  /** Whether a pass of the worker for the section at `idx` reaches the
      click: the loop runs only while the global flag is up and the section
      is enabled, the section needs a target, and on Linux a failed
      primitive needs a working fallback. Elsewhere than on Linux a failed
      primitive is not retried and the pass carries on as if it had
      clicked. */
  predicate PassClicks(c: Controller, idx: nat, outcome: DriverOutcome, platform: Platform)
    requires idx < |c.slots|
  {
    && c.globalActive && c.slots[idx].enabled && c.slots[idx].coordinates.Some?
    && (outcome == Clicked || (outcome.PrimaryFailed? && (platform == OtherPlatform || outcome.fallback == FallbackOk)))
  }

  /** One pass of `clicker_worker` for the section at `idx`, with `outcome`
      the result of the click attempt. A pass that does not reach the click
      ends the loop (a missing target, or a failed Linux fallback caught by
      the inner handler or escaping to the outer one). A pass that clicks
      counts the click and sleeps for the section's interval; a negative
      interval makes the sleep raise, and the outer handler ends the loop
      after the click was counted. */
  function WorkerStep(c: Controller, idx: nat, outcome: DriverOutcome, platform: Platform): (r: Step)
    requires idx < |c.slots|
    ensures r.Continue? <==>
              PassClicks(c, idx, outcome, platform) && Interval.TotalMilliseconds(c.slots[idx].fields) >= 0
    ensures r.Continue? ==>
              && r.target == c.slots[idx].coordinates.value
              && r.sleepMs == Interval.TotalMilliseconds(c.slots[idx].fields)
              && r.state.slots == c.slots[idx := c.slots[idx].(clickCount := c.slots[idx].clickCount + 1, isActive := true)]
              && r.state.(slots := c.slots) == c
    ensures r.Exit? && r.clicked.Some? <==>
              PassClicks(c, idx, outcome, platform) && Interval.TotalMilliseconds(c.slots[idx].fields) < 0
    ensures r.Exit? && r.clicked.Some? ==>
              && r.clicked.value == c.slots[idx].coordinates.value
              && r.state == WorkerExit(c.(slots := c.slots[idx := c.slots[idx].(clickCount := c.slots[idx].clickCount + 1)]), idx)
    ensures r.Exit? && r.clicked.None? ==> r.state == WorkerExit(c, idx)
  {
    var s := c.slots[idx];
    if !(c.globalActive && s.enabled) then Exit(WorkerExit(c, idx), None)
    else if s.coordinates.None? then
      Exit(WorkerExit(SetSlot(c, idx, UpdateStatus(s, false, None)), idx), None)
    else
      var clicked := match outcome
        case Clicked => true
        case PrimaryFailed(fallback) => platform == OtherPlatform || fallback == FallbackOk;
      if !clicked then Exit(WorkerExit(c, idx), None)
      else
        var count := s.clickCount + 1;
        var c' := SetSlot(c, idx, UpdateStatus(s.(clickCount := count), true, Some(count)));
        var sleepMs := Interval.TotalMilliseconds(s.fields);
        if sleepMs < 0 then Exit(WorkerExit(c', idx), Some(s.coordinates.value))
        else Continue(c', s.coordinates.value, sleepMs)
  }

  /** What the control thread may do while a worker sleeps. */
  datatype ControlOp = StopAllOp | StartAllOp | SetEnabledOp(slot: nat, on: bool)

  /** One event seen by a worker's run: its own next pass, or a control
      action taken meanwhile. */
  datatype WorkerEvent = Iterate(outcome: DriverOutcome) | Control(op: ControlOp)

  function ApplyControl(c: Controller, op: ControlOp): (r: Controller)
    ensures |r.slots| == |c.slots|
    ensures forall i :: 0 <= i < |c.slots| ==>
              && r.slots[i].id == c.slots[i].id
              && r.slots[i].clickCount == c.slots[i].clickCount
              && r.slots[i].coordinates == c.slots[i].coordinates
              && r.slots[i].fields == c.slots[i].fields
  {
    match op
    case StopAllOp => StopAll(c)
    case StartAllOp => StartAll(c).0
    case SetEnabledOp(j, on) => if j < |c.slots| then SetSlot(c, j, SetEnabled(c.slots[j], on)) else c
  }

  /** The result of running a worker over a finite trace of events. */
  datatype Run = Run(state: Controller, clicks: seq<Point>, sleptMs: int, exited: bool)

  /** The number of passes in a trace. */
  function PassCount(events: seq<WorkerEvent>): nat {
    if |events| == 0 then 0 else (if events[0].Iterate? then 1 else 0) + PassCount(events[1..])
  }

  /** `n` passes in a row, each click succeeding, with nothing in between. */
  function CleanPasses(n: nat): seq<WorkerEvent> {
    if n == 0 then [] else [Iterate(Clicked)] + CleanPasses(n - 1)
  }

  /** `clicker_worker` from the moment it is inside its loop: each
      `Iterate` is one pass, each `Control` a change made by the control
      thread in between. The run stops at the first exit or at the end of
      the trace. */
  function WorkerRun(c: Controller, idx: nat, events: seq<WorkerEvent>, platform: Platform): (r: Run)
    requires idx < |c.slots|
    decreases |events|
    ensures |r.state.slots| == |c.slots|
    ensures r.state.slots[idx].clickCount == c.slots[idx].clickCount + |r.clicks|
    ensures forall k :: 0 <= k < |r.clicks| ==> c.slots[idx].coordinates == Some(r.clicks[k])
    ensures r.exited ==> c.slots[idx].id !in r.state.activeClickers && c.slots[idx].id !in r.state.workers
    ensures r.exited ==> !r.state.slots[idx].isActive
    ensures !r.exited ==> |r.clicks| == PassCount(events)
    ensures r.exited ==> |r.clicks| <= PassCount(events)
  {
    if |events| == 0 then Run(c, [], 0, false)
    else match events[0]
      case Control(op) =>
        WorkerRun(ApplyControl(c, op), idx, events[1..], platform)
      case Iterate(outcome) =>
        match WorkerStep(c, idx, outcome, platform)
        case Exit(c', clicked) => Run(c', if clicked.Some? then [clicked.value] else [], 0, true)
        case Continue(c', target, sleepMs) =>
          var rest := WorkerRun(c', idx, events[1..], platform);
          Run(rest.state, [target] + rest.clicks, sleepMs + rest.sleptMs, rest.exited)
  }

  /** After `stop_all_clickers`, a worker makes no further click: its next
      pass leaves the loop, whatever else the trace holds. */
  lemma NoClickAfterStop(c: Controller, idx: nat, outcome: DriverOutcome, rest: seq<WorkerEvent>, platform: Platform)
    requires idx < |c.slots|
    ensures var r := WorkerRun(c, idx, [Control(StopAllOp), Iterate(outcome)] + rest, platform);
            && r.clicks == [] && r.exited
            && c.slots[idx].id !in r.state.activeClickers && c.slots[idx].id !in r.state.workers
  {
    var events := [Control(StopAllOp), Iterate(outcome)] + rest;
    assert events[1..] == [Iterate(outcome)] + rest;
    assert WorkerStep(StopAll(c), idx, outcome, platform).Exit?;
  }

  /** Unticking a section's enabled box while its worker sleeps makes the
      worker's next pass leave the loop without clicking. */
  lemma NoClickAfterDisable(c: Controller, idx: nat, outcome: DriverOutcome, rest: seq<WorkerEvent>, platform: Platform)
    requires idx < |c.slots|
    ensures var r := WorkerRun(c, idx, [Control(SetEnabledOp(idx, false)), Iterate(outcome)] + rest, platform);
            && r.clicks == [] && r.exited
            && !r.state.slots[idx].isActive && !r.state.slots[idx].enabled
            && c.slots[idx].id !in r.state.activeClickers && c.slots[idx].id !in r.state.workers
  {
    var events := [Control(SetEnabledOp(idx, false)), Iterate(outcome)] + rest;
    assert events[1..] == [Iterate(outcome)] + rest;
    var c' := ApplyControl(c, SetEnabledOp(idx, false));
    assert !c'.slots[idx].enabled;
    assert WorkerStep(c', idx, outcome, platform).Exit?;
  }

  /** A pass that stays in the loop is followed by the rest of the run. */
  lemma WorkerRunAfterPass(c: Controller, idx: nat, outcome: DriverOutcome, rest: seq<WorkerEvent>, platform: Platform)
    requires idx < |c.slots| && WorkerStep(c, idx, outcome, platform).Continue?
    ensures var step := WorkerStep(c, idx, outcome, platform);
            var r := WorkerRun(c, idx, [Iterate(outcome)] + rest, platform);
            var tail := WorkerRun(step.state, idx, rest, platform);
            && r.clicks == [step.target] + tail.clicks
            && r.sleptMs == step.sleepMs + tail.sleptMs
            && r.exited == tail.exited
            && r.state == tail.state
  {
    assert ([Iterate(outcome)] + rest)[1..] == rest;
  }

  /** With the flag up, the section enabled and a target set, a worker
      whose clicks all succeed clicks once per pass at its target and never
      leaves the loop. */
  lemma {:induction false} UndisturbedWorkerClicksEveryPass(c: Controller, idx: nat, n: nat, platform: Platform)
    requires idx < |c.slots|
    requires c.globalActive && c.slots[idx].enabled && c.slots[idx].coordinates.Some?
    requires Interval.TotalMilliseconds(c.slots[idx].fields) >= 0
    decreases n
    ensures var r := WorkerRun(c, idx, CleanPasses(n), platform);
            && !r.exited
            && |r.clicks| == n
            && (forall k :: 0 <= k < n ==> r.clicks[k] == c.slots[idx].coordinates.value)
            && r.sleptMs == n * Interval.TotalMilliseconds(c.slots[idx].fields)
            && r.state.slots[idx].clickCount == c.slots[idx].clickCount + n
  {
    if n > 0 {
      var step := WorkerStep(c, idx, Clicked, platform);
      var c' := step.state;
      assert c'.slots[idx] == c.slots[idx].(clickCount := c.slots[idx].clickCount + 1, isActive := true);
      UndisturbedWorkerClicksEveryPass(c', idx, n - 1, platform);
      WorkerRunAfterPass(c, idx, Clicked, CleanPasses(n - 1), platform);
      var t := Interval.TotalMilliseconds(c.slots[idx].fields);
      assert n * t == t + (n - 1) * t;
    }
  }

  /** With a negative interval (an entry such as "-1" read between a key
      press and the validation that follows its release), the first pass
      clicks and counts, then the sleep raises and the worker leaves. */
  lemma NegativeIntervalClicksOnce(c: Controller, idx: nat, rest: seq<WorkerEvent>, platform: Platform)
    requires idx < |c.slots|
    requires c.globalActive && c.slots[idx].enabled && c.slots[idx].coordinates.Some?
    requires Interval.TotalMilliseconds(c.slots[idx].fields) < 0
    ensures var r := WorkerRun(c, idx, [Iterate(Clicked)] + rest, platform);
            && r.exited && r.clicks == [c.slots[idx].coordinates.value]
            && r.state.slots[idx].clickCount == c.slots[idx].clickCount + 1
            && !r.state.slots[idx].isActive
            && c.slots[idx].id !in r.state.activeClickers && c.slots[idx].id !in r.state.workers
  {
    assert WorkerStep(c, idx, Clicked, platform).Exit?;
  }

  /** Every section with a worker in its loop also has a thread entry. */
  predicate RunningHaveWorkers(c: Controller) {
    c.activeClickers <= c.workers
  }

  /** Everything that can happen to the controller, including the
      entry, passes and exit of a worker for the section at `slot`. */
  datatype Action =
    | Start | Stop | ToggleAll | Reset
    | Enable(slot: nat, on: bool)
    | Enter(slot: nat)
    | Pass(slot: nat, outcome: DriverOutcome, platform: Platform)

  function Apply(c: Controller, a: Action): Controller {
    match a
    case Start => StartAll(c).0
    case Stop => StopAll(c)
    case ToggleAll => Toggle(c).0
    case Reset => ResetAll(c)
    case Enable(j, on) => if j < |c.slots| then SetSlot(c, j, SetEnabled(c.slots[j], on)) else c
    case Enter(j) => if j < |c.slots| && c.slots[j].id in c.workers then WorkerEnter(c, j) else c
    case Pass(j, o, p) => if j < |c.slots| then WorkerStep(c, j, o, p).state else c
  }

  /** No action puts a section in the running set without a thread entry. */
  lemma ApplyKeepsRunningHaveWorkers(c: Controller, a: Action)
    requires RunningHaveWorkers(c)
    ensures RunningHaveWorkers(Apply(c, a))
  {
  }

  /** The same holds over any sequence of actions from start-up. */
  lemma {:induction false} RunningHaveWorkersAlways(c: Controller, actions: seq<Action>)
    requires RunningHaveWorkers(c)
    ensures RunningHaveWorkers(ApplyAll(c, actions))
    decreases |actions|
  {
    if |actions| > 0 {
      ApplyKeepsRunningHaveWorkers(c, actions[0]);
      RunningHaveWorkersAlways(Apply(c, actions[0]), actions[1..]);
    }
  }

  function ApplyAll(c: Controller, actions: seq<Action>): Controller
    decreases |actions|
  {
    if |actions| == 0 then c else ApplyAll(Apply(c, actions[0]), actions[1..])
  }
}
